=== FILE: README.md ===
# disk-eaters, modelled in Dafny

`disk_eaters_go-v2.go` is a periodic disk-usage report. It finds the largest
directories and files under a scan root, saves the results as a snapshot, and
reports how much each path grew since the previous snapshot. For large files it
can also list the processes that hold them open, by parsing `lsof -F pcun`
output.

This project models the parts of that program that compute something, as pure
functions over immutable data:

- **Snapshot codec** (`Snapshot`, built on `Decimal` and `Text`). `saveEntries`
  writes one `"%d\t%s\n"` line per entry. `loadEntries` reads lines the way
  `bufio.ScanLines` does, splits each at its first tab, and parses the size with
  `strconv.ParseInt(s, 10, 64)`. Lines that do not parse are skipped. A file
  that cannot be opened is the only error, and is modelled as `None` in place
  of the file's text.
- **Top-N selection** (`TopN`): `sort.Slice` by size, largest first, then
  truncation to `maxItems`. Go's sort is unstable, so `Sort` is one admissible
  outcome. `SelectTop` states only what every outcome shares, and
  `AnySortSameSizes` shows that every outcome has the same sizes in the same
  order.
- **Growth analysis** (`Growth`): the previous snapshot becomes a map where the
  last entry for a path wins. Each current entry whose path is in the map and
  whose `int64` delta is positive is kept. Go's `int64` subtraction wraps
  around, and that wrap-around is written out.
- **lsof field parsing** (`Lsof`): the state machine of `parseLsofOutput`,
  together with an independent block-by-block reading of the same lines.
- **The two tree walks** (`FileTree`, `DirAggregator`, `FileScanner`).
  - `findLargestDirectories` runs one `filepath.Walk` per directory, down to
    depth 4. `findLargestFiles` walks the whole tree once.
  - Both run over a static tree, and a directory is either readable or not.
    Children are listed in the order `filepath.Walk` visits them, which is
    sorted by name with no name twice. The tree type takes this as a
    convention and does not check it.
  - The filesystem-boundary test is a parameter (`Boundary`).
  - Each walk is compared with a reference definition over the flattened tree:
    which locations the walk reaches, and which files each directory's size
    counts.
- **Boundary finding** (`BoundaryFinding`): what the walks report under the
  boundary test as written, and under the device comparison it evidently
  stands for.

The per-directory walks that the program runs as concurrent goroutines are
modelled in one sequential order. Their results are sorted afterwards, and the
sizes of the sorted result, in order, are the same for every interleaving;
only the order among equal sizes can differ.

Three behaviours of the code that the model follows:

- `findLargestDirectories` adds the `Lstat` size of every non-directory it
  meets, including symbolic links and special files. It does not add only
  regular files. `DirAggregator.Counted` has no regularity test for this reason.
- A directory entry's size covers all files below it only at depth 4. At
  depths 0-3 it covers only the files directly inside it (`ShallowSize`).
- Entry paths are the joined paths `filepath.Walk` produces, such as `/r/d/c`.
  They are not paths relative to the scan root. For the scan root `.` they
  carry no `./` prefix (`d/c`), because the join is cleaned. A path "lies
  in" a directory (`FileTree.Under`) when it is the directory itself or
  continues the directory's path past a `/`; every relative path lies in `.`.
  So `/rx/a` does not lie in `/r`.

## Model

| member | source | states |
|---|---|---|
| Decimal.FormatInt | disk_eaters_go-v2.go:643 | `%d` of a size: at least one character; a leading `-` exactly when the value is negative; every other character a decimal digit; the digits have no leading zero unless the number is 0 |
| Decimal.ParseInt64 | disk_eaters_go-v2.go:711-714 | `strconv.ParseInt(s, 10, 64)` succeeds exactly when the text is an optional `+` or `-` followed by at least one decimal digit and nothing else, and the number it denotes fits `int64`; the value is that number, negated after `-`; a syntax error and a range error both give `None` |
| Decimal.FormatThenParse | disk_eaters_go-v2.go:711 | parsing the `%d` text of any `int64` gives back that value |
| Decimal.DigitsRoundTrip | disk_eaters_go-v2.go:711 | the decimal digits of a natural number read back as that number |
| Text.Split | disk_eaters_go-v2.go:427 | `strings.Split(output, "\n")` gives at least one piece; no piece holds the separator; joining the pieces with it gives back the input |
| Text.SplitJoin | disk_eaters_go-v2.go:427 | splitting the join of separator-free pieces gives back exactly those pieces |
| Text.SplitFirst | disk_eaters_go-v2.go:706 | `strings.SplitN(line, "\t", 2)`: one piece, equal to the line, when there is no tab; otherwise two pieces, where the first has no tab and the line is first + tab + second |
| Text.SplitFirstUnique | disk_eaters_go-v2.go:706-709 | a line made of a tab-free head, a tab and any tail splits into exactly that head and tail |
| Text.DropCRs | disk_eaters_go-v2.go:703-705 | the scanner strips exactly one trailing carriage return from each line and leaves other lines alone |
| Text.DropCR | disk_eaters_go-v2.go:703-705 | a line ending in a carriage return loses exactly that one character; any other line is unchanged; no newline is introduced |
| Text.ScanLines | disk_eaters_go-v2.go:703-705 | the scanner's lines are the raw lines of the text with one trailing carriage return dropped each: newline-free pieces of which the text is each followed by a newline, except that a last non-empty piece may lack it; an empty file has no lines |
| Text.Pieces | disk_eaters_go-v2.go:703-705 | the raw lines are the newline-separated pieces without the empty piece after a final newline; none holds a newline |
| Text.PiecesAreRawLines | disk_eaters_go-v2.go:703-705 | those pieces read the text as raw lines, with or without a newline after the last one |
| Text.RawLinesUnique | disk_eaters_go-v2.go:703-705 | a text has only one reading as raw lines, so the scanner's lines are determined by the text |
| Text.ScanTerminated | disk_eaters_go-v2.go:703-705 | scanning newline-terminated lines without newlines or trailing carriage returns gives back exactly those lines; the empty piece after the final newline is not a line |
| Text.TerminatedIsJoin | disk_eaters_go-v2.go:643 | newline-terminated lines are their join with a newline plus a final empty piece |
| Entries.SizesIndex | disk_eaters_go-v2.go:564-566 | the size sequence the sort orders by holds each entry's size at its index |
| Snapshot.FormatLines | disk_eaters_go-v2.go:642-644 | one snapshot line per entry, in entry order |
| Snapshot.FormatLine | disk_eaters_go-v2.go:643 | a saved line holds a tab; the text before the first tab is the `%d` text of the size and everything after it is the path |
| Snapshot.ParseLine | disk_eaters_go-v2.go:706-719 | a line is skipped exactly when it has no tab or the text before the first tab is not an `int64`; otherwise the path is everything after the first tab (tabs included) and the size is the parsed prefix |
| Snapshot.ParseLines | disk_eaters_go-v2.go:704-720 | never more entries than lines, and every loaded size is an `int64` |
| Snapshot.ParseLinesSound | disk_eaters_go-v2.go:704-719 | every loaded entry is the entry of one of the lines |
| Snapshot.ParseLinesNoNewline | disk_eaters_go-v2.go:706-718 | the path is the tail of its line, so newline-free lines give newline-free paths |
| Snapshot.Parse | disk_eaters_go-v2.go:702-720 | an empty file gives no entries; at most one entry per scanned line, each the entry of one of those lines; every size is an `int64` and no path holds a newline |
| Snapshot.ParseComplete | disk_eaters_go-v2.go:703-720 | every well-formed scanned line of a file is loaded, in line order: its entry comes right after the entries of the lines before it |
| Snapshot.ParseLinesComplete | disk_eaters_go-v2.go:704-720 | every well-formed line's entry is kept, placed after the entries of the lines before it |
| Snapshot.ParseLinesAppend | disk_eaters_go-v2.go:704-720 | lines are parsed independently: the parse of concatenated lines is the concatenation of the parses |
| Snapshot.ParseOneLine | disk_eaters_go-v2.go:710-719 | a single line yields no entry or exactly its parsed entry |
| Snapshot.Save | disk_eaters_go-v2.go:633-646 | the saved text is empty exactly when there are no entries, and otherwise ends with a newline |
| Snapshot.Load | disk_eaters_go-v2.go:695-699 | loading fails exactly when the file cannot be opened; loaded sizes are `int64` |
| Snapshot.FormatLineIsPlain | disk_eaters_go-v2.go:643 | the line saved for an entry whose path has no newline and does not end in a carriage return has neither either |
| Snapshot.ParseFormatLine | disk_eaters_go-v2.go:706-719 | the saved line of any entry with an `int64` size parses back to that entry, even when the path holds tabs |
| Snapshot.SaveIsTerminated | disk_eaters_go-v2.go:642-644 | the saved file is the entries' lines, each followed by a newline |
| Snapshot.ParseFormatLines | disk_eaters_go-v2.go:704-720 | the saved lines of `int64`-sized entries parse back to the same entries in the same order |
| Snapshot.RoundTrip | disk_eaters_go-v2.go:695-723 | loading what `saveEntries` wrote succeeds and gives back the same entries, for every entry list whose paths have no newline or trailing carriage return |
| TopN.Insert | disk_eaters_go-v2.go:564-566 | inserting into a sorted list keeps it sorted largest first and adds exactly that entry |
| TopN.Sort | disk_eaters_go-v2.go:564-566 | the sort result is a permutation of its input, non-increasing by size |
| TopN.Truncate | disk_eaters_go-v2.go:569-572 | keeps the first `maxItems` entries when there are more, and all of them otherwise |
| TopN.SelectTop | disk_eaters_go-v2.go:564-572 | the result has `min(maxItems, n)` entries, sorted largest first, drawn from the input without duplication, and no left-out entry is larger than any kept one |
| TopN.KeptOrOutranked | disk_eaters_go-v2.go:564-572 | an entry is either selected, or the selection already holds `maxItems` entries and every one of them is at least as large |
| TopN.DroppedAreSmaller | disk_eaters_go-v2.go:569-570 | truncating a sorted list drops only entries no larger than any kept entry |
| TopN.SizesOfPermutation | disk_eaters_go-v2.go:564-566 | rearranging entries rearranges their sizes the same way |
| TopN.NonIncreasingUnique | disk_eaters_go-v2.go:564-566 | two non-increasing orderings of the same sizes are equal |
| TopN.AnySortSameSizes | disk_eaters_go-v2.go:564-572 | every outcome of the unstable sort gives the same sequence of sizes after truncation, so only the order of equal sizes can vary |
| Growth.Wrap64 | disk_eaters_go-v2.go:672 | `int64` subtraction: the result is an `int64` congruent to the exact difference modulo 2^64, and equal to it when no overflow occurs |
| Growth.PreviousSizes | disk_eaters_go-v2.go:663-666 | the map's keys are exactly the previous snapshot's paths, and each key maps to the size of the last entry with that path |
| Growth.Delta | disk_eaters_go-v2.go:672 | the growth of a path is an `int64` congruent to the current size minus the previous size modulo 2^64, and equal to that difference whenever it fits |
| Growth.GrowthEntries | disk_eaters_go-v2.go:669-680 | every result comes from a current entry whose path was seen before, and carries that entry's positive delta; every such current entry with a positive delta is in the result |
| Growth.GrowthEntriesAppend | disk_eaters_go-v2.go:669-680 | the loop handles the current entries one at a time and in order: the growth of two concatenated snapshots is the growth of the first followed by the growth of the second |
| Growth.GrowthEntriesOne | disk_eaters_go-v2.go:670-679 | one current entry yields exactly one growth entry, its path with the delta, when its path was in the previous snapshot and the delta is positive, and nothing otherwise |
| Growth.AnalyzeGrowth | disk_eaters_go-v2.go:649-692 | fails exactly when either snapshot cannot be opened; otherwise at most `maxItems` entries, sorted largest first, each with a positive size |
| Growth.SelectedPositive | disk_eaters_go-v2.go:673 | selecting from positive deltas keeps only positive deltas |
| Growth.GrowthEntrySound | disk_eaters_go-v2.go:670-679 | each growth entry names a current entry and a previous entry with the same path; its size is their wrapped difference, taken against the last previous entry for that path |
| Growth.GrowthSound | disk_eaters_go-v2.go:649-692 | every reported growth is the positive wrapped difference between a current entry's size and the last size the previous snapshot records for that path |
| Growth.LastIndexOf | disk_eaters_go-v2.go:664-666 | every path in the previous snapshot has a last occurrence, the one the map keeps |
| Growth.NewPathsNeverGrow | disk_eaters_go-v2.go:671 | a path that is absent from the previous snapshot is never reported |
| Growth.DeltaExact | disk_eaters_go-v2.go:672-673 | for non-negative `int64` sizes the delta is the exact difference, and is positive exactly when the size grew |
| Growth.GrowthComplete | disk_eaters_go-v2.go:670-691 | a current entry whose path was seen before and whose delta is positive is reported with that delta, unless the result already holds `maxItems` entries, each at least as large |
| Growth.GrowthSample | disk_eaters_go-v2.go:649-692 | previous `x`=1000 and current `x`=1500, `y`=200 give exactly `[x: 500]`; the new path `y` is not reported |
| Lsof.ModeOf | disk_eaters_go-v2.go:446-453 | an `f` value naming `r` gives `r`, otherwise one naming `w` gives `w`, otherwise one naming `u` gives `rw`; a value naming none of the three leaves the access unchanged |
| Lsof.ApplyField | disk_eaters_go-v2.go:441-453 | `c`, `u` and `f` lines (and every other line that is not a `p` line) never change the PID of the current record |
| Lsof.Fresh | disk_eaters_go-v2.go:440 | a `p` line starts a record with that PID, access `?` and empty user and command; it can be returned exactly when the PID is non-empty |
| Lsof.Flush | disk_eaters_go-v2.go:437-439 | the current record is appended, as the one new last record, exactly when its PID is non-empty; the records kept so far are never changed |
| Lsof.Run | disk_eaters_go-v2.go:426-460 | the loop only appends to the records already emitted, and every record it appends has a non-empty PID |
| Lsof.RunReturnable | disk_eaters_go-v2.go:433-460 | the loop only ever appends records with a non-empty PID and an access in `{?, r, w, rw}` |
| Lsof.ParseLsofOutput | disk_eaters_go-v2.go:420-463 | every returned record has a non-empty PID and an access of `?`, `r`, `w` or `rw` |
| Lsof.NextPidLine | disk_eaters_go-v2.go:435 | finds the next line that starts a record, with no record start skipped before it |
| Lsof.ApplyFieldsLastWins | disk_eaters_go-v2.go:441-453 | within one record the PID is kept, and the user, command and access are those of the last line that set each |
| Lsof.ApplyFieldsCons | disk_eaters_go-v2.go:433-453 | field lines are applied in input order |
| Lsof.RecordsSkipFields | disk_eaters_go-v2.go:437-440 | field lines before the first `p` line contribute no record |
| Lsof.RunIsRecords | disk_eaters_go-v2.go:427-460 | the state machine emits the current record, then one record per later block that starts with a `p` line with a non-empty PID, in order |
| Lsof.RecordsAtPidLine | disk_eaters_go-v2.go:435-440 | a `p` line starts a new record with that PID and access `?`, holding the fields up to the next `p` line |
| Lsof.ApplyFieldsKeepsPid | disk_eaters_go-v2.go:441-453 | a block of field lines keeps the PID its `p` line set |
| Lsof.ParseIsRecords | disk_eaters_go-v2.go:420-463 | the parse equals the independent block reading: one record per `p` line with a non-empty value, built from that line's block alone |
| Lsof.PidsAppend | disk_eaters_go-v2.go:437-440 | the PIDs of concatenated record lists are the concatenated PIDs |
| Lsof.RecordsPids | disk_eaters_go-v2.go:435-460 | the block reading yields the non-empty `p` values, in order, as PIDs |
| Lsof.ParsePids | disk_eaters_go-v2.go:420-463 | the returned PIDs are exactly the non-empty values of the `p` lines, in input order: no process is lost, none is invented |
| Boundary.SysPointersDiffer | disk_eaters_go-v2.go:623-631 | as written, the test answers "different filesystem" exactly when both `os.Stat` calls succeed |
| Boundary.DevicesDiffer | disk_eaters_go-v2.go:623-631 | the device comparison answers "different" only when both stats succeed; it is symmetric, and never says a path is on a different filesystem from itself |
| Boundary.SysPointersNotReflexive | disk_eaters_go-v2.go:630 | as written, a path that can be stat'ed is "on a different filesystem" from itself; the device comparison never says so |
| FileTree.Join | disk_eaters_go-v2.go:537 | the path `filepath.Walk` builds for a listed name ends with the name and lies in the directory: it continues the directory's path past a `/`, except that the current directory `.` adds no prefix at all |
| FileTree.SiblingNotUnder | disk_eaters_go-v2.go:537 | `/r/a` lies in `/r`, but the sibling `/rx/a`, which only shares a name prefix, does not |
| FileTree.UnderJoin | disk_eaters_go-v2.go:537 | what lies in a child's joined path lies in its parent directory |
| FileScanner.ScanNode | disk_eaters_go-v2.go:581-603 | every file collected below an entry lies in that entry's directory and has a non-negative size; together they never exceed the bytes of its subtree |
| FileScanner.ScanKids | disk_eaters_go-v2.go:581-603 | the same for the children of a directory: paths in the directory, sizes non-negative, total within the children's bytes |
| FileScanner.ScanFiles | disk_eaters_go-v2.go:581-604 | every collected file lies in the scan root with a non-negative size, and together they never exceed the bytes in the tree |
| FileScanner.FindLargestFiles | disk_eaters_go-v2.go:576-620 | `min(maxItems, n)` files, sorted largest first, all drawn from what the walk collected; the error result is never set |
| FileScanner.NoneScannedBelow | disk_eaters_go-v2.go:583-591 | below a directory the walk cannot list, or a non-root directory on another filesystem than the root, no file is collected |
| FileScanner.ScanNodeIsReference | disk_eaters_go-v2.go:581-603 | the walk from an entry that the walk reaches collects exactly the reachable regular files of its subtree |
| FileScanner.ScanFilesIsReference | disk_eaters_go-v2.go:581-603 | the scan collects, in walk order, exactly one entry per regular file with its size, for each file whose ancestors are all readable and, below the root, on the root's filesystem; directories, links and special files never appear |
| DirAggregator.WalkedSize | disk_eaters_go-v2.go:515-544 | one walk never adds more for an entry than the bytes of the non-directories in its subtree; a non-directory adds exactly its `Lstat` size |
| DirAggregator.WalkedKids | disk_eaters_go-v2.go:515-544 | one walk never adds more for the children of a directory than the bytes of their subtrees |
| DirAggregator.DirSize | disk_eaters_go-v2.go:511-544 | a directory's size never exceeds the bytes of the non-directories below it; a walk rooted at a non-directory counts exactly its size |
| DirAggregator.ProcessKids | disk_eaters_go-v2.go:537-554 | at depth 4 and beyond no subdirectory is deferred, so nothing is produced; every entry produced lies in the directory and has a non-negative size |
| DirAggregator.Deferred | disk_eaters_go-v2.go:517-540 | a subdirectory set aside for a walk of its own adds nothing to its parent's size |
| DirAggregator.DeferredIsReached | disk_eaters_go-v2.go:537-554 | a child of a processed directory is set aside exactly when it is itself processed |
| DirAggregator.ProcessDir | disk_eaters_go-v2.go:503-555 | beyond depth 4 there are no entries; otherwise the directory's own entry, with its walked size, comes first; every entry lies in the directory and has a non-negative size |
| DirAggregator.AllDirs | disk_eaters_go-v2.go:559-561 | the scan root always gets an entry, with its walked size, even when it cannot be listed |
| DirAggregator.FindLargestDirectories | disk_eaters_go-v2.go:564-572 | `min(maxItems, n)` directory entries, sorted largest first, all drawn from the aggregation |
| DirAggregator.CountedBytesAppend | disk_eaters_go-v2.go:527-528 | sizes add up across consecutive parts of a walk |
| DirAggregator.NoneCountedBelow | disk_eaters_go-v2.go:517-523 | nothing below an unreadable directory, or below a directory on another filesystem than the walk's top, is counted; nor, at depths 0-3, is anything deeper than the direct children |
| DirAggregator.WalkedSizeIsReference | disk_eaters_go-v2.go:515-544 | what one walk adds for an entry equals the total size of the non-directories it reaches in that entry's subtree |
| DirAggregator.DirSizeIsReference | disk_eaters_go-v2.go:515-544 | a directory's size is the total size of the non-directories below it on its own filesystem through readable directories at depth 4; at depths 0-3 only those directly inside it count |
| DirAggregator.ShallowSize | disk_eaters_go-v2.go:538-541 | at depths 0-3 a readable directory's size is exactly the total size of the non-directories directly inside it |
| DirAggregator.LinkedPrefix | disk_eaters_go-v2.go:552-554 | a directory is processed only if each of its ancestors was processed |
| DirAggregator.NoneReachedBelow | disk_eaters_go-v2.go:517-541 | no entry is produced below an unreadable directory, a boundary crossing, or depth 4 |
| DirAggregator.ProcessDirIsReference | disk_eaters_go-v2.go:503-555 | the entries produced from a processed directory are, in pre-order, exactly the processed directories of its subtree, each with its walked size |
| DirAggregator.AllDirsIsReference | disk_eaters_go-v2.go:496-561 | exactly one entry for the root and for each readable directory at most 4 levels down whose chain of parents were all processed and all found it on their own filesystem; nothing else gets an entry |
| BoundaryFinding.ScanAsWritten | disk_eaters_go-v2.go:588-591 | with the test as written, the file scan reports only the regular files directly inside the root, however deep the tree |
| BoundaryFinding.AggregateAsWritten | disk_eaters_go-v2.go:522-523 | with the test as written, the aggregation reports only the root, sized by the files directly inside it |
| BoundaryFinding.ScanOneDevice | disk_eaters_go-v2.go:581-603 | with the device comparison on one filesystem, the scan reports every regular file below readable directories, in walk order |
| BoundaryFinding.SampleAsWritten | disk_eaters_go-v2.go:576-620 | as written, the two largest files of a root holding `a` (100), `b` (300) and `d/c` (500) are reported as `b`, `a` |
| BoundaryFinding.SampleOneDevice | disk_eaters_go-v2.go:576-620 | with the device comparison, the same tree gives `d/c`, `b` |
| BoundaryFinding.DotRootSample | disk_eaters_go-v2.go:581-600 | scanning from `.` reports a file `a` as `a`, not `./a` |

## Left out

- `main` and the report writer are left out. This covers flag parsing, log
  files, the previous-result copy, report formatting, and the "no previous
  data" message shown when there is no earlier snapshot. They are
  orchestration and output, with no logic of their own.
- `formatSize` is left out. It formats with floating point, which the model
  does not represent.
- `findProcessesUsingFile` and its Linux, macOS and Windows variants are left
  out. They run external commands and read `/proc`. Only the text parser
  `parseLsofOutput` is modelled.
- `copyFile` and `printHeader` are left out. They are I/O only.
- Concurrency is left out: goroutines, the mutex and the wait group. The
  deferred directories are processed in one fixed order. The sorted result's
  sizes do not depend on that order (`TopN.AnySortSameSizes`).
- Write errors in `saveEntries` are left out. So are read errors and
  over-long lines in `loadEntries`, and `bufio.Scanner`'s 64 KiB token limit.
  They are I/O failures outside the text model.
- File sizes are unbounded naturals. Overflow of the summed `int64` directory
  size is not modelled.
- `Lstat` failures on individual names are left out. They occur in a race
  with the filesystem between listing and visiting. They also occur for a
  directory that can be listed but not searched (read permission without
  execute). The model represents such a directory as a readable directory
  with no children.
- Directories that become unreadable during the scan are left out. In the
  static tree, a directory is readable for every walk or for none.
- An unreadable subdirectory gets no aggregator entry at all. `filepath.Walk`
  hands its read error to the callback (lines 517-518), which returns
  `SkipDir` before the deferral test (line 538). Only the scan root can get an
  entry of size 0 for being unreadable. For example, a root `/r` holding one
  unreadable directory yields `[("/r", 0)]`. The model does the same
  (`Deferred` requires a readable directory).
- The walk root is assumed to be in clean form. A trailing slash would change
  what `filepath.Dir(subPath) == path` and `subPath == path` compare. These
  comparisons are modelled structurally: the walk's own root against its
  descendants.
- Path uniqueness among entries is left out. It holds for the walks, and the
  growth model does not depend on it (the last previous entry wins).
- FileTree.Join: only the `/` separator is modelled. The Windows branches
  of the program would join with `\`. Because the join is cleaned, a path
  under the root `.` does not start with `.`, so `Join` and the walk
  contracts promise only that paths lie in the directory (`Under`), not
  that they start with its path when the directory is `.`.
- Strings are sequences of characters standing for bytes. No text encoding
  is modelled.
- A negative `maxItems` is left out. It makes Go's slice expression panic, so
  `maxItems` is a `nat`.

## Findings

| source | as written | input that shows it | evidently intended | confidence | as-written member | corrected member |
|---|---|---|---|---|---|---|
| disk_eaters_go-v2.go:630 | `stat1.Sys() != stat2.Sys()` compares two pointers to separately allocated stat buffers, so every pair of paths that can be stat'ed counts as being on different filesystems | a root holding `a` (100 bytes), `b` (300 bytes) and `d/c` (500 bytes), `-max 2`: the file scan prunes `d` and reports `b`, `a` | compare the device numbers of the two stat results, so that `d/c`, `b` are reported; the aggregation likewise reports only the root | not executed | BoundaryFinding.SampleAsWritten | BoundaryFinding.SampleOneDevice |

=== FILE: boundary.dfy ===
/** `isOnDifferentFilesystem(path1, path2)`, the test both walks use to stop
    at mount points. The walks take the test as a parameter; this module gives
    the two readings of the source. */
module Boundary {
  import opened Wrappers

  /** "Is the second path on a different filesystem from the first?" */
  type FsTest = (string, string) -> bool

  /** The test as written: `stat1.Sys() != stat2.Sys()` compares two pointers
      to freshly allocated stat buffers, so it answers true whenever both
      `os.Stat` calls succeed (`statOk`), and false when either fails. */
  function SysPointersDiffer(statOk: string -> bool): (test: FsTest)
    ensures forall a, b :: test(a, b) <==> statOk(a) && statOk(b)
  {
    (a: string, b: string) => statOk(a) && statOk(b)
  }

  /** The test as intended: compare the device numbers of the two stat
      results; `device` is `None` where `os.Stat` fails, and then the answer
      is false. */
  function DevicesDiffer(device: string -> Option<int>): (test: FsTest)
    ensures forall a, b :: test(a, b) ==> device(a).Some? && device(b).Some?
    ensures forall a, b :: test(a, b) <==> test(b, a)
    ensures forall a :: !test(a, a)
  {
    (a: string, b: string) => device(a).Some? && device(b).Some? && device(a).value != device(b).value
  }

  /** As written, every path that can be stat'ed is "on a different
      filesystem" from itself, which the device comparison never says. */
  lemma SysPointersNotReflexive(statOk: string -> bool, device: string -> Option<int>, a: string)
    requires statOk(a)
    ensures SysPointersDiffer(statOk)(a, a)
    ensures !DevicesDiffer(device)(a, a)
  {
  }
}

=== FILE: boundary_finding.dfy ===
/** What the two walks report under each reading of the filesystem-boundary
    test: as written, every subdirectory that can be stat'ed counts as
    another filesystem, so both walks stop at the scan root's direct
    children; with the device comparison on a single filesystem, nothing is
    pruned. */
module BoundaryFinding {
  import opened Wrappers
  import opened Entries
  import opened TopN
  import opened Boundary
  import opened FileTree
  import opened FileScanner
  import opened DirAggregator

  /** The test as written, on a tree where every path can be stat'ed. */
  function AsWritten(): FsTest {
    SysPointersDiffer(_ => true)
  }

  /** The intended test, on a tree that lies on one device. */
  function OneDevice(): FsTest {
    DevicesDiffer(_ => Some(0))
  }

  /** The regular files among `kids`, with their paths under `p`. */
  function RegularKids(p: string, kids: seq<Node>): seq<DiskEntry> {
    if kids == [] then []
    else
      var k := kids[0];
      var here := if k.File? && k.regular then [DiskEntry(Join(p, k.name), k.size)] else [];
      here + RegularKids(p, kids[1..])
  }

  lemma {:induction false} ScanKidsAsWritten(root: string, kids: seq<Node>)
    ensures ScanKids(AsWritten(), root, root, kids) == RegularKids(root, kids)
  {
    if kids != [] {
      ScanKidsAsWritten(root, kids[1..]);
    }
  }

  /** As written, the file scan of a readable root reports only the regular
      files directly inside it, however deep the tree is. */
  lemma ScanAsWritten(root: string, name: string, kids: seq<Node>)
    ensures ScanFiles(AsWritten(), root, Dir(name, true, kids)) == RegularKids(root, kids)
  {
    ScanKidsAsWritten(root, kids);
  }

  lemma {:induction false} ProcessKidsAsWritten(root: string, kids: seq<Node>)
    ensures ProcessKids(AsWritten(), root, kids, 0) == []
  {
    if kids != [] {
      ProcessKidsAsWritten(root, kids[1..]);
    }
  }

  /** As written, the directory aggregation of a readable root reports the
      root alone, with the size of the files directly inside it. */
  lemma AggregateAsWritten(root: string, name: string, kids: seq<Node>)
    ensures AllDirs(AsWritten(), root, Dir(name, true, kids)) == [DiskEntry(root, FileBytes(kids))]
  {
    ProcessKidsAsWritten(root, kids);
    ShallowSize(AsWritten(), root, kids, 0);
  }

  /** The regular files among `locs` below readable directories only. */
  function ReadableFiles(locs: seq<Located>): seq<DiskEntry> {
    if locs == [] then []
    else
      var loc := locs[0];
      var here :=
        if loc.node.File? && loc.node.regular && (forall i :: 0 <= i < |loc.chain| ==> loc.chain[i].readable)
        then [DiskEntry(loc.path, loc.node.size)]
        else [];
      here + ReadableFiles(locs[1..])
  }

  lemma {:induction false} ScannedOneDevice(root: string, locs: seq<Located>)
    ensures ScannedEntries(OneDevice(), root, locs) == ReadableFiles(locs)
  {
    if locs != [] {
      ScannedOneDevice(root, locs[1..]);
    }
  }

  /** With the device comparison on one filesystem, the file scan reports
      every regular file that lies below readable directories only, in walk
      order. */
  lemma ScanOneDevice(root: string, tree: Node)
    ensures ScanFiles(OneDevice(), root, tree) == ReadableFiles(Flatten(root, tree, []))
  {
    ScanFilesIsReference(OneDevice(), root, tree);
    ScannedOneDevice(root, Flatten(root, tree, []));
  }

  /** A root holding `a` (100 bytes), `b` (300 bytes) and `d/c` (500 bytes). */
  function Sample(): Node {
    Dir("r", true, [File("a", 100, true), File("b", 300, true), Dir("d", true, [File("c", 500, true)])])
  }

  lemma SamplePaths()
    ensures Join("/r", "a") == "/r/a" && Join("/r", "b") == "/r/b"
    ensures Join("/r", "d") == "/r/d" && Join("/r/d", "c") == "/r/d/c"
  {
    assert "/r"[1] == 'r';
    assert "/r/d"[3] == 'd';
  }

  /** As written, the two largest files of the sample are `b` and `a`: `d/c`,
      the largest, is never seen. */
  lemma SampleAsWritten()
    ensures FindLargestFiles(AsWritten(), "/r", Sample(), 2) == [DiskEntry("/r/b", 300), DiskEntry("/r/a", 100)]
  {
    SampleScanAsWritten();
    SortTwo(DiskEntry("/r/a", 100), DiskEntry("/r/b", 300));
  }

  lemma SampleScanAsWritten()
    ensures ScanFiles(AsWritten(), "/r", Sample()) == [DiskEntry("/r/a", 100), DiskEntry("/r/b", 300)]
  {
    var kids := Sample().children;
    SamplePaths();
    ScanAsWritten("/r", "r", kids);
    assert kids[1..][1..][1..] == [];
    assert RegularKids("/r", kids[1..][1..]) == [];
    assert RegularKids("/r", kids[1..]) == [DiskEntry("/r/b", 300)];
    assert RegularKids("/r", kids) == [DiskEntry("/r/a", 100), DiskEntry("/r/b", 300)];
  }

  /** Scanning from `.` reports paths relative to it: a file `a` is `a`. */
  lemma DotRootSample()
    ensures FindLargestFiles(OneDevice(), ".", Dir(".", true, [File("a", 100, true)]), 5) == [DiskEntry("a", 100)]
  {
    DotRootScan();
    var found := [DiskEntry("a", 100)];
    assert found[1..] == [];
    assert Sort(found) == found;
  }

  lemma DotRootScan()
    ensures ScanFiles(OneDevice(), ".", Dir(".", true, [File("a", 100, true)])) == [DiskEntry("a", 100)]
  {
    var kids := [File("a", 100, true)];
    assert Join(".", "a") == "a";
    assert kids[1..] == [];
    assert ScanKids(OneDevice(), ".", ".", kids) == [DiskEntry("a", 100)];
  }

  lemma OneDeviceNeverDiffers(a: string, b: string)
    ensures !OneDevice()(a, b)
  {
  }

  lemma SampleScanOneDevice()
    ensures ScanFiles(OneDevice(), "/r", Sample()) ==
      [DiskEntry("/r/a", 100), DiskEntry("/r/b", 300), DiskEntry("/r/d/c", 500)]
  {
    var kids := Sample().children;
    var test := OneDevice();
    SamplePaths();
    OneDeviceNeverDiffers("/r", "/r/d");
    var d := kids[2];
    assert d.children[1..] == [];
    assert ScanKids(test, "/r", "/r/d", d.children) == [DiskEntry("/r/d/c", 500)];
    assert ScanNode(test, "/r", "/r/d", d, false) == [DiskEntry("/r/d/c", 500)];
    assert kids[2..][1..] == [];
    assert ScanKids(test, "/r", "/r", kids[2..]) == [DiskEntry("/r/d/c", 500)];
    assert kids[1..][1..] == kids[2..];
    assert ScanKids(test, "/r", "/r", kids[1..]) == [DiskEntry("/r/b", 300), DiskEntry("/r/d/c", 500)];
  }

  /** With the device comparison, the two largest files of the sample are
      `d/c` and `b`. */
  lemma SampleOneDevice()
    ensures FindLargestFiles(OneDevice(), "/r", Sample(), 2) == [DiskEntry("/r/d/c", 500), DiskEntry("/r/b", 300)]
  {
    SampleScanOneDevice();
    SortSample();
  }

  lemma SortSample()
    ensures Sort([DiskEntry("/r/a", 100), DiskEntry("/r/b", 300), DiskEntry("/r/d/c", 500)]) ==
      [DiskEntry("/r/d/c", 500), DiskEntry("/r/b", 300), DiskEntry("/r/a", 100)]
  {
    var a, b, c := DiskEntry("/r/a", 100), DiskEntry("/r/b", 300), DiskEntry("/r/d/c", 500);
    assert [a, b, c][1..] == [b, c];
    SortTwo(b, c);
    InsertSmallest(a, c, b);
  }

  lemma SortTwo(b: DiskEntry, c: DiskEntry)
    requires b.size < c.size
    ensures Sort([b, c]) == [c, b]
  {
    assert [b, c][1..] == [c];
    assert Sort([c]) == [c];
    assert Insert(b, [c]) == [c] + Insert(b, []);
  }

  lemma InsertSmallest(a: DiskEntry, c: DiskEntry, b: DiskEntry)
    requires a.size < b.size <= c.size
    ensures Insert(a, [c, b]) == [c, b, a]
  {
    InsertBelowOne(a, b);
    InsertBelowHead(a, c, b);
  }

  lemma InsertBelowOne(a: DiskEntry, b: DiskEntry)
    requires a.size < b.size
    ensures Insert(a, [b]) == [b, a]
  {
    assert Insert(a, [b]) == [b] + Insert(a, []);
  }

  lemma InsertBelowHead(a: DiskEntry, c: DiskEntry, b: DiskEntry)
    requires a.size < b.size <= c.size
    ensures Insert(a, [c, b]) == [c] + Insert(a, [b])
  {
    var s := [c, b];
    assert s[1..] == [b];
    assert s[0] == c;
  }
}

=== FILE: decimal.dfy ===
/** Decimal text of 64-bit signed integers, as Go's `fmt` verb `%d` writes it
    and as `strconv.ParseInt(s, 10, 64)` reads it back. */
module Decimal {
  import opened Wrappers

  const MinInt64: int := -0x8000_0000_0000_0000
  const MaxInt64: int := 0x7FFF_FFFF_FFFF_FFFF

  /** `v` fits Go's `int64`. */
  predicate InInt64(v: int) {
    MinInt64 <= v <= MaxInt64
  }

  predicate IsDigit(c: char) {
    '0' <= c <= '9'
  }

  predicate AllDigits(s: string) {
    forall i :: 0 <= i < |s| ==> IsDigit(s[i])
  }

  function DigitChar(d: nat): (c: char)
    requires d < 10
    ensures IsDigit(c)
  {
    ('0' as int + d) as char
  }

  function DigitValue(c: char): (d: nat)
    requires IsDigit(c)
    ensures d < 10
  {
    c as int - '0' as int
  }

  /** The decimal digits of `n`, most significant first, with no leading zero. */
  function NatDigits(n: nat): (s: string)
    ensures |s| >= 1 && AllDigits(s)
    ensures |s| > 1 ==> s[0] != '0'
  {
    if n < 10 then [DigitChar(n)] else NatDigits(n / 10) + [DigitChar(n % 10)]
  }

  /** The number a non-empty run of decimal digits denotes (leading zeros allowed). */
  function DigitsValue(s: string): nat
    requires AllDigits(s)
  {
    if s == [] then 0 else DigitsValue(s[..|s| - 1]) * 10 + DigitValue(s[|s| - 1])
  }

  lemma {:induction false} DigitsRoundTrip(n: nat)
    ensures DigitsValue(NatDigits(n)) == n
  {
    if n >= 10 {
      var s := NatDigits(n);
      assert s[..|s| - 1] == NatDigits(n / 10);
      DigitsRoundTrip(n / 10);
    }
  }

  /** The text `%d` prints for `v`: a minus sign for negative values, then the
      digits of the magnitude. */
  function FormatInt(v: int): (s: string)
    ensures |s| >= 1
    ensures v < 0 <==> s[0] == '-'
    ensures forall i :: 0 <= i < |s| ==> IsDigit(s[i]) || (i == 0 && s[i] == '-')
    ensures var digits := if v < 0 then s[1..] else s;
      |digits| >= 1 && (|digits| > 1 ==> digits[0] != '0')
  {
    if v < 0 then "-" + NatDigits(-v) else NatDigits(v)
  }

  /** The syntax `strconv.ParseInt` accepts in base 10: an optional `+` or
      `-`, then at least one decimal digit and nothing else. */
  predicate SignedDigits(s: string) {
    && |s| >= 1
    && IsDigit(s[|s| - 1])
    && forall i :: 0 <= i < |s| ==> IsDigit(s[i]) || (i == 0 && (s[i] == '+' || s[i] == '-'))
  }

  /** The number signed decimal text denotes. */
  function SignedValue(s: string): int
    requires SignedDigits(s)
  {
    if IsDigit(s[0]) then DigitsValue(s)
    else if s[0] == '-' then -(DigitsValue(s[1..]) as int)
    else DigitsValue(s[1..])
  }

  /** `strconv.ParseInt(s, 10, 64)`: text of the wrong syntax is a syntax
      error, a value outside `int64` is a range error, and either kind of
      error is `None`. */
  function ParseInt64(s: string): (r: Option<int>)
    ensures r.Some? <==> SignedDigits(s) && InInt64(SignedValue(s))
    ensures r.Some? ==> r.value == SignedValue(s)
  {
    if s == [] then None
    else
      var digits := if s[0] == '+' || s[0] == '-' then s[1..] else s;
      if digits == [] || !AllDigits(digits) then None
      else
        var magnitude: int := DigitsValue(digits);
        var v := if s[0] == '-' then -magnitude else magnitude;
        if InInt64(v) then Some(v) else None
  }

  /** Reading back what `%d` wrote gives the same `int64`. */
  lemma FormatThenParse(v: int)
    requires InInt64(v)
    ensures ParseInt64(FormatInt(v)) == Some(v)
  {
    var s := FormatInt(v);
    if v < 0 {
      assert s[1..] == NatDigits(-v);
      DigitsRoundTrip(-v);
    } else {
      DigitsRoundTrip(v);
    }
  }
}

=== FILE: dir_aggregator.dfy ===
/** `findLargestDirectories`: one walk per directory down to `MaxDepth`
    levels below the scan root. Each walk sums the non-directory entries it
    meets; a walk above the depth limit defers every direct subdirectory to a
    walk of its own one level deeper, instead of entering it. */
module DirAggregator {
  import opened Entries
  import opened TopN
  import opened Boundary
  import opened FileTree

  /** The deepest level that gets a walk of its own; a walk at this level
      no longer defers its subdirectories but enters them. */
  const MaxDepth: nat := 4

  /** What the walk rooted at `top` (at level `depth`) adds for the entry `n`
      at path `q`, where `direct` says that `q` is a direct child of `top`.
      A non-directory adds its size; an unreadable directory, a directory the
      test puts on another filesystem than `top`, and a deferred direct
      subdirectory add nothing; any other directory is entered. */
  function WalkedSize(differentFs: FsTest, top: string, depth: nat, q: string, n: Node, direct: bool)
    : (bytes: nat)
    ensures bytes <= TreeBytes(n)
    ensures n.File? ==> bytes == n.size
    decreases n, 1
  {
    match n
    case File(_, size, _) => size
    case Dir(_, readable, kids) =>
      if !readable then 0
      else if differentFs(top, q) then 0
      else if depth < MaxDepth && direct then 0
      else WalkedKids(differentFs, top, depth, q, kids, false)
  }

  function WalkedKids(differentFs: FsTest, top: string, depth: nat, q: string, kids: seq<Node>, direct: bool)
    : (bytes: nat)
    ensures bytes <= KidsBytes(kids)
    decreases kids, 0
  {
    if kids == [] then 0
    else
      var first := WalkedSize(differentFs, top, depth, Join(q, kids[0].name), kids[0], direct);
      first + WalkedKids(differentFs, top, depth, q, kids[1..], direct)
  }

  /** `dirSize` after the walk rooted at `p`: the root of a walk is neither
      boundary-tested nor deferred; if it cannot be listed the walk stops
      at once with nothing added. */
  function DirSize(differentFs: FsTest, p: string, n: Node, depth: nat): (bytes: nat)
    ensures bytes <= TreeBytes(n)
    ensures n.File? ==> bytes == n.size
  {
    match n
    case File(_, size, _) => size
    case Dir(_, readable, kids) =>
      if readable then WalkedKids(differentFs, p, depth, p, kids, true) else 0
  }

  /** The walk rooted at `p` (level `depth`) puts the child `k` on its list
      of subdirectories to process separately. */
  predicate Deferred(differentFs: FsTest, p: string, k: Node, depth: nat)
    ensures Deferred(differentFs, p, k, depth) ==> WalkedSize(differentFs, p, depth, Join(p, k.name), k, true) == 0
  {
    depth < MaxDepth && k.Dir? && k.readable && !differentFs(p, Join(p, k.name))
  }

  /** `processDir(p, depth)`: nothing beyond the depth limit; otherwise the
      entry for `p`, followed by those of the deferred subdirectories, each
      processed one level deeper. The source runs the deferred calls as
      concurrent goroutines appending under a mutex; this is one of their
      interleavings, and the selection that follows does not depend on it. */
  function ProcessDir(differentFs: FsTest, p: string, n: Node, depth: nat): (r: seq<DiskEntry>)
    ensures depth > MaxDepth ==> r == []
    ensures depth <= MaxDepth ==> |r| >= 1 && r[0] == DiskEntry(p, DirSize(differentFs, p, n, depth))
    ensures forall i :: 0 <= i < |r| ==> Under(p, r[i].path) && r[i].size >= 0
    decreases n, 1
  {
    if depth > MaxDepth then []
    else
      var below := if n.Dir? && n.readable then ProcessKids(differentFs, p, n.children, depth) else [];
      [DiskEntry(p, DirSize(differentFs, p, n, depth))] + below
  }

  function ProcessKids(differentFs: FsTest, p: string, kids: seq<Node>, depth: nat): (r: seq<DiskEntry>)
    ensures depth >= MaxDepth ==> r == []
    ensures forall i :: 0 <= i < |r| ==> Under(p, r[i].path) && r[i].size >= 0
    decreases kids, 0
  {
    if kids == [] then []
    else
      var first :=
        if Deferred(differentFs, p, kids[0], depth)
        then ProcessDir(differentFs, Join(p, kids[0].name), kids[0], depth + 1)
        else [];
      var rest := ProcessKids(differentFs, p, kids[1..], depth);
      UnderJoinAll(p, kids[0].name, first);
      first + rest
  }

  /** Every directory entry the aggregation produces, starting at level 0. */
  function AllDirs(differentFs: FsTest, root: string, tree: Node): (r: seq<DiskEntry>)
    ensures |r| >= 1 && r[0] == DiskEntry(root, DirSize(differentFs, root, tree, 0))
  {
    ProcessDir(differentFs, root, tree, 0)
  }

  /** `findLargestDirectories(rootPath, maxItems)`; its error result is always nil. */
  function FindLargestDirectories(differentFs: FsTest, root: string, tree: Node, maxItems: nat)
    : (top: seq<DiskEntry>)
    ensures |top| == if maxItems < |AllDirs(differentFs, root, tree)| then maxItems else |AllDirs(differentFs, root, tree)|
    ensures SortedDesc(top)
    ensures multiset(top) <= multiset(AllDirs(differentFs, root, tree))
  {
    SelectTop(AllDirs(differentFs, root, tree), maxItems)
  }

  // ---------------------------------------------------------------------
  // Reference for the sizes: which files of a subtree a walk counts.

  /** The walk rooted at `top` at level `depth` counts the non-directory at
      `loc`: every directory above it is readable and, below `top`, on
      `top`'s filesystem; above the depth limit, it must also lie directly
      in `top` (or be `top` itself). */
  predicate Counted(differentFs: FsTest, top: string, depth: nat, loc: Located) {
    loc.node.File? && OpenChain(differentFs, top, loc.chain) && (depth >= MaxDepth || |loc.chain| <= 1)
  }

  /** The total size of the counted entries among `locs`. */
  function CountedBytes(differentFs: FsTest, top: string, depth: nat, locs: seq<Located>): nat {
    if locs == [] then 0
    else
      var here := if Counted(differentFs, top, depth, locs[0]) then locs[0].node.size else 0;
      here + CountedBytes(differentFs, top, depth, locs[1..])
  }

  lemma {:induction false} CountedBytesAppend(differentFs: FsTest, top: string, depth: nat, a: seq<Located>, b: seq<Located>)
    ensures CountedBytes(differentFs, top, depth, a + b) ==
      CountedBytes(differentFs, top, depth, a) + CountedBytes(differentFs, top, depth, b)
  {
    if a == [] {
      assert a + b == b;
    } else {
      assert (a + b)[0] == a[0];
      assert (a + b)[1..] == a[1..] + b;
      CountedBytesAppend(differentFs, top, depth, a[1..], b);
    }
  }

  /** An ancestor prefix that the walk does not get through. */
  predicate Stopped(differentFs: FsTest, top: string, depth: nat, c: seq<Ancestor>) {
    !OpenChain(differentFs, top, c) || (depth < MaxDepth && |c| > 1)
  }

  lemma {:induction false} NoneCountedBelow(differentFs: FsTest, top: string, depth: nat, locs: seq<Located>, c: seq<Ancestor>)
    requires forall k :: 0 <= k < |locs| ==> c <= locs[k].chain
    requires Stopped(differentFs, top, depth, c)
    ensures CountedBytes(differentFs, top, depth, locs) == 0
  {
    if locs != [] {
      if OpenChain(differentFs, top, locs[0].chain) {
        OpenChainPrefix(differentFs, top, c, locs[0].chain);
      }
      NoneCountedBelow(differentFs, top, depth, locs[1..], c);
    }
  }

  lemma {:induction false} WalkedSizeIsReference(differentFs: FsTest, top: string, depth: nat, q: string, n: Node, chain: seq<Ancestor>)
    requires chain != [] && OpenChain(differentFs, top, chain)
    requires depth >= MaxDepth || |chain| == 1
    ensures WalkedSize(differentFs, top, depth, q, n, |chain| == 1) ==
      CountedBytes(differentFs, top, depth, Flatten(q, n, chain))
    decreases n, 1
  {
    var locs := Flatten(q, n, chain);
    assert locs[1..] == if n.Dir? then FlattenKids(q, n.children, chain + [Ancestor(q, n.readable)]) else [];
    match n
    case File(_, _, _) =>
    case Dir(_, readable, kids) =>
      var below := chain + [Ancestor(q, readable)];
      assert below[|chain|] == Ancestor(q, readable);
      if !readable || differentFs(top, q) || (depth < MaxDepth && |chain| == 1) {
        NoneCountedBelow(differentFs, top, depth, locs[1..], below);
      } else {
        assert OpenChain(differentFs, top, below) by {
          forall i | 0 <= i < |below|
            ensures below[i].readable && (i == 0 || !differentFs(top, below[i].path))
          {
            if i < |chain| {
              assert below[i] == chain[i];
            }
          }
        }
        WalkedKidsIsReference(differentFs, top, depth, q, kids, below);
      }
  }

  lemma {:induction false} WalkedKidsIsReference(differentFs: FsTest, top: string, depth: nat, q: string, kids: seq<Node>, chain: seq<Ancestor>)
    requires chain != [] && OpenChain(differentFs, top, chain)
    requires depth >= MaxDepth || |chain| == 1
    ensures WalkedKids(differentFs, top, depth, q, kids, |chain| == 1) ==
      CountedBytes(differentFs, top, depth, FlattenKids(q, kids, chain))
    decreases kids, 0
  {
    if kids != [] {
      var r := Join(q, kids[0].name);
      WalkedSizeIsReference(differentFs, top, depth, r, kids[0], chain);
      WalkedKidsIsReference(differentFs, top, depth, q, kids[1..], chain);
      CountedBytesAppend(differentFs, top, depth, Flatten(r, kids[0], chain), FlattenKids(q, kids[1..], chain));
    }
  }

  /** The size reported for the directory at `p` is the total size of the
      non-directories its walk reaches: all of them under `p` on `p`'s
      filesystem through readable directories at the depth limit, and only
      those directly in `p` above it. */
  lemma DirSizeIsReference(differentFs: FsTest, p: string, n: Node, depth: nat)
    ensures DirSize(differentFs, p, n, depth) == CountedBytes(differentFs, p, depth, Flatten(p, n, []))
  {
    var locs := Flatten(p, n, []);
    assert n.Dir? ==> [] + [Ancestor(p, n.readable)] == [Ancestor(p, n.readable)];
    assert locs[1..] == if n.Dir? then FlattenKids(p, n.children, [Ancestor(p, n.readable)]) else [];
    match n
    case File(_, _, _) =>
    case Dir(_, readable, kids) =>
      if readable {
        WalkedKidsIsReference(differentFs, p, depth, p, kids, [Ancestor(p, true)]);
      } else {
        assert !OpenChain(differentFs, p, [Ancestor(p, false)]) by {
          assert [Ancestor(p, false)][0] == Ancestor(p, false);
        }
        NoneCountedBelow(differentFs, p, depth, locs[1..], [Ancestor(p, false)]);
      }
  }

  /** The total size of the non-directories among `kids`. */
  function FileBytes(kids: seq<Node>): nat {
    if kids == [] then 0
    else (if kids[0].File? then kids[0].size else 0) + FileBytes(kids[1..])
  }

  lemma {:induction false} ShallowKids(differentFs: FsTest, top: string, depth: nat, kids: seq<Node>)
    requires depth < MaxDepth
    ensures WalkedKids(differentFs, top, depth, top, kids, true) == FileBytes(kids)
  {
    if kids != [] {
      ShallowKids(differentFs, top, depth, kids[1..]);
    }
  }

  /** Above the depth limit a directory's size is exactly that of the
      non-directories directly inside it: its subdirectories' contents go to
      their own entries or nowhere. */
  lemma ShallowSize(differentFs: FsTest, p: string, kids: seq<Node>, depth: nat)
    requires depth < MaxDepth
    ensures DirSize(differentFs, p, Dir(p, true, kids), depth) == FileBytes(kids)
  {
    ShallowKids(differentFs, p, depth, kids);
  }

  // ---------------------------------------------------------------------
  // Reference for the entries: which directories get an entry.

  /** Every ancestor is readable and each one is on its parent's filesystem,
      as the parent's own walk sees it. */
  predicate Linked(differentFs: FsTest, c: seq<Ancestor>) {
    forall i :: 0 <= i < |c| ==> c[i].readable && (i == 0 || !differentFs(c[i - 1].path, c[i].path))
  }

  /** The entry at `loc` is processed: it is the scan root, or a readable
      directory at most `MaxDepth` levels down every ancestor of which was
      processed and deferred it. */
  predicate Reached(differentFs: FsTest, loc: Located) {
    loc.chain == [] ||
    (&& loc.node.Dir? && loc.node.readable
     && |loc.chain| <= MaxDepth
     && Linked(differentFs, loc.chain)
     && !differentFs(loc.chain[|loc.chain| - 1].path, loc.path))
  }

  /** One entry, with its directory size, per processed location among `locs`. */
  function ReachedEntries(differentFs: FsTest, locs: seq<Located>): seq<DiskEntry> {
    if locs == [] then [] else ReachedEntry(differentFs, locs[0]) + ReachedEntries(differentFs, locs[1..])
  }

  /** The entry for `loc` if it is processed, with its directory size. */
  function ReachedEntry(differentFs: FsTest, loc: Located): seq<DiskEntry> {
    if Reached(differentFs, loc) then [DiskEntry(loc.path, DirSize(differentFs, loc.path, loc.node, |loc.chain|))] else []
  }

  lemma {:induction false} ReachedEntriesAppend(differentFs: FsTest, a: seq<Located>, b: seq<Located>)
    ensures ReachedEntries(differentFs, a + b) == ReachedEntries(differentFs, a) + ReachedEntries(differentFs, b)
  {
    if a == [] {
      assert a + b == b;
    } else {
      assert (a + b)[0] == a[0];
      assert (a + b)[1..] == a[1..] + b;
      ReachedEntriesAppend(differentFs, a[1..], b);
    }
  }

  lemma LinkedPrefix(differentFs: FsTest, c: seq<Ancestor>, longer: seq<Ancestor>)
    requires c <= longer && Linked(differentFs, longer)
    ensures Linked(differentFs, c)
  {
    forall i | 0 <= i < |c|
      ensures c[i].readable && (i == 0 || !differentFs(c[i - 1].path, c[i].path))
    {
      assert c[i] == longer[i];
      if i > 0 {
        assert c[i - 1] == longer[i - 1];
      }
    }
  }

  /** A non-empty ancestor prefix no processed entry can lie below. */
  predicate Unreachable(differentFs: FsTest, c: seq<Ancestor>) {
    c != [] && (|c| > MaxDepth || !Linked(differentFs, c))
  }

  lemma {:induction false} NoneReachedBelow(differentFs: FsTest, locs: seq<Located>, c: seq<Ancestor>)
    requires forall k :: 0 <= k < |locs| ==> c <= locs[k].chain
    requires Unreachable(differentFs, c)
    ensures ReachedEntries(differentFs, locs) == []
  {
    if locs != [] {
      if Linked(differentFs, locs[0].chain) {
        LinkedPrefix(differentFs, c, locs[0].chain);
      }
      NoneReachedBelow(differentFs, locs[1..], c);
    }
  }

  lemma {:induction false} ProcessDirIsReference(differentFs: FsTest, p: string, n: Node, chain: seq<Ancestor>)
    requires Reached(differentFs, Located(p, n, chain))
    ensures ProcessDir(differentFs, p, n, |chain|) == ReachedEntries(differentFs, Flatten(p, n, chain))
    decreases n, 1
  {
    var locs := Flatten(p, n, chain);
    assert locs[1..] == if n.Dir? then FlattenKids(p, n.children, chain + [Ancestor(p, n.readable)]) else [];
    match n
    case File(_, _, _) =>
    case Dir(_, readable, kids) =>
      var below := chain + [Ancestor(p, readable)];
      assert below[|chain|] == Ancestor(p, readable);
      if !readable {
        NoneReachedBelow(differentFs, locs[1..], below);
      } else {
        ReachedLinksOn(differentFs, p, n, chain);
        ProcessKidsIsReference(differentFs, p, kids, below);
      }
  }

  /** A processed readable directory extends its ancestors' link. */
  lemma ReachedLinksOn(differentFs: FsTest, p: string, n: Node, chain: seq<Ancestor>)
    requires Reached(differentFs, Located(p, n, chain)) && n.Dir? && n.readable
    ensures Linked(differentFs, chain + [Ancestor(p, true)])
  {
    var below := chain + [Ancestor(p, true)];
    forall i | 0 <= i < |below|
      ensures below[i].readable && (i == 0 || !differentFs(below[i - 1].path, below[i].path))
    {
      if i < |chain| {
        assert below[i] == chain[i];
        if i > 0 {
          assert below[i - 1] == chain[i - 1];
        }
      } else if i > 0 {
        assert below[i - 1] == chain[|chain| - 1];
      }
    }
  }

  lemma {:induction false} ProcessKidsIsReference(differentFs: FsTest, p: string, kids: seq<Node>, chain: seq<Ancestor>)
    requires chain != [] && chain[|chain| - 1].path == p && |chain| <= MaxDepth + 1
    requires Linked(differentFs, chain)
    ensures ProcessKids(differentFs, p, kids, |chain| - 1) == ReachedEntries(differentFs, FlattenKids(p, kids, chain))
    decreases kids, 0
  {
    if kids != [] {
      var k := kids[0];
      var q := Join(p, k.name);
      var locs := Flatten(q, k, chain);
      if Deferred(differentFs, p, k, |chain| - 1) {
        ProcessDirIsReference(differentFs, q, k, chain);
      } else {
        NotDeferredNotReached(differentFs, p, k, chain);
      }
      ProcessKidsIsReference(differentFs, p, kids[1..], chain);
      ReachedEntriesAppend(differentFs, locs, FlattenKids(p, kids[1..], chain));
    }
  }

  /** A child of a processed directory is deferred exactly when it is
      processed itself. */
  lemma DeferredIsReached(differentFs: FsTest, p: string, k: Node, chain: seq<Ancestor>)
    requires chain != [] && chain[|chain| - 1].path == p
    requires Linked(differentFs, chain)
    ensures Deferred(differentFs, p, k, |chain| - 1) <==> Reached(differentFs, Located(Join(p, k.name), k, chain))
  {
  }

  /** A child its parent's walk does not defer is processed nowhere. */
  lemma NotDeferredNotReached(differentFs: FsTest, p: string, k: Node, chain: seq<Ancestor>)
    requires chain != [] && chain[|chain| - 1].path == p && |chain| <= MaxDepth + 1
    requires Linked(differentFs, chain)
    requires !Deferred(differentFs, p, k, |chain| - 1)
    ensures ReachedEntries(differentFs, Flatten(Join(p, k.name), k, chain)) == []
  {
    var q := Join(p, k.name);
    var locs := Flatten(q, k, chain);
    assert !Reached(differentFs, locs[0]);
    if k.Dir? {
      var c := chain + [Ancestor(q, k.readable)];
      assert c[|chain|] == Ancestor(q, k.readable) && c[|chain| - 1] == chain[|chain| - 1];
      assert locs[1..] == FlattenKids(q, k.children, c);
      NoneReachedBelow(differentFs, locs[1..], c);
    }
    assert locs == [locs[0]] + locs[1..];
  }

  /** The aggregation reports exactly one entry per processed directory (and
      one for the scan root, whatever it is), in pre-order, each carrying
      the size its walk counts. */
  lemma AllDirsIsReference(differentFs: FsTest, root: string, tree: Node)
    ensures AllDirs(differentFs, root, tree) == ReachedEntries(differentFs, Flatten(root, tree, []))
  {
    ProcessDirIsReference(differentFs, root, tree, []);
  }
}

=== FILE: entries.dfy ===
/** The `DiskEntry` record every scan produces and every snapshot stores. */
module Entries {

  /** A file or directory path with a size in bytes (for growth results, a
      size delta). Go's `int64` size is an unbounded `int` here. */
  datatype DiskEntry = DiskEntry(path: string, size: int)

  /** The sizes of `entries`, in order. */
  function Sizes(entries: seq<DiskEntry>): (r: seq<int>)
    ensures |r| == |entries|
  {
    if entries == [] then [] else [entries[0].size] + Sizes(entries[1..])
  }

  /** The sum of the sizes of `entries`. */
  function Total(entries: seq<DiskEntry>): int {
    if entries == [] then 0 else entries[0].size + Total(entries[1..])
  }

  lemma {:induction false} TotalAppend(a: seq<DiskEntry>, b: seq<DiskEntry>)
    ensures Total(a + b) == Total(a) + Total(b)
  {
    if a != [] {
      assert (a + b)[1..] == a[1..] + b;
      TotalAppend(a[1..], b);
    } else {
      assert a + b == b;
    }
  }

  lemma {:induction false} SizesIndex(entries: seq<DiskEntry>)
    ensures forall i :: 0 <= i < |entries| ==> Sizes(entries)[i] == entries[i].size
  {
    if entries != [] {
      SizesIndex(entries[1..]);
    }
  }
}

=== FILE: file_scanner.dfy ===
/** `findLargestFiles`: walk the whole tree under the scan root, keep every
    regular file with its size, then select the largest. */
module FileScanner {
  import opened Entries
  import opened TopN
  import opened Boundary
  import opened FileTree

  /** The files the walk callback appends for the entry `n` at path `p`.
      Errors (here: an unreadable directory) skip the entry silently; a
      directory other than the root that the test puts on another filesystem
      than the root is skipped whole; non-regular files are ignored. */
  function ScanNode(differentFs: FsTest, root: string, p: string, n: Node, isRoot: bool)
    : (r: seq<DiskEntry>)
    ensures forall i :: 0 <= i < |r| ==> Under(p, r[i].path) && r[i].size >= 0
    ensures Total(r) <= TreeBytes(n)
    decreases n, 1
  {
    match n
    case File(_, size, regular) => if regular then [DiskEntry(p, size)] else []
    case Dir(_, readable, kids) =>
      if !readable then []
      else if !isRoot && differentFs(root, p) then []
      else ScanKids(differentFs, root, p, kids)
  }

  function ScanKids(differentFs: FsTest, root: string, p: string, kids: seq<Node>)
    : (r: seq<DiskEntry>)
    ensures forall i :: 0 <= i < |r| ==> Under(p, r[i].path) && r[i].size >= 0
    ensures Total(r) <= KidsBytes(kids)
    decreases kids, 0
  {
    if kids == [] then []
    else
      var first := ScanNode(differentFs, root, Join(p, kids[0].name), kids[0], false);
      var rest := ScanKids(differentFs, root, p, kids[1..]);
      TotalAppend(first, rest);
      UnderJoinAll(p, kids[0].name, first);
      first + rest
  }

  /** All files the walk from the scan root collects, in walk order. */
  function ScanFiles(differentFs: FsTest, root: string, tree: Node): (files: seq<DiskEntry>)
    ensures forall i :: 0 <= i < |files| ==> Under(root, files[i].path) && files[i].size >= 0
    ensures Total(files) <= TreeBytes(tree)
  {
    ScanNode(differentFs, root, root, tree, true)
  }

  /** `findLargestFiles(rootPath, maxItems)`. Its error result is never set:
      the callback returns only `nil` or `SkipDir`. */
  function FindLargestFiles(differentFs: FsTest, root: string, tree: Node, maxItems: nat)
    : (top: seq<DiskEntry>)
    ensures |top| == if maxItems < |ScanFiles(differentFs, root, tree)| then maxItems else |ScanFiles(differentFs, root, tree)|
    ensures SortedDesc(top)
    ensures multiset(top) <= multiset(ScanFiles(differentFs, root, tree))
  {
    SelectTop(ScanFiles(differentFs, root, tree), maxItems)
  }

  // ---------------------------------------------------------------------
  // Reference: the files the scan should report, read off the flattened tree.

  /** A regular file none of whose ancestors stopped the walk. */
  predicate Scanned(differentFs: FsTest, root: string, loc: Located) {
    loc.node.File? && loc.node.regular && OpenChain(differentFs, root, loc.chain)
  }

  /** The entries of the scanned files among `locs`, in order. */
  function ScannedEntries(differentFs: FsTest, root: string, locs: seq<Located>): seq<DiskEntry> {
    if locs == [] then []
    else
      var here := if Scanned(differentFs, root, locs[0]) then [DiskEntry(locs[0].path, locs[0].node.size)] else [];
      here + ScannedEntries(differentFs, root, locs[1..])
  }

  lemma {:induction false} ScannedEntriesAppend(differentFs: FsTest, root: string, a: seq<Located>, b: seq<Located>)
    ensures ScannedEntries(differentFs, root, a + b) ==
      ScannedEntries(differentFs, root, a) + ScannedEntries(differentFs, root, b)
  {
    if a == [] {
      assert a + b == b;
    } else {
      assert (a + b)[0] == a[0];
      assert (a + b)[1..] == a[1..] + b;
      ScannedEntriesAppend(differentFs, root, a[1..], b);
    }
  }

  /** Below an ancestor chain the walk does not get through, nothing is scanned. */
  lemma {:induction false} NoneScannedBelow(differentFs: FsTest, root: string, locs: seq<Located>, c: seq<Ancestor>)
    requires forall k :: 0 <= k < |locs| ==> c <= locs[k].chain
    requires !OpenChain(differentFs, root, c)
    ensures ScannedEntries(differentFs, root, locs) == []
  {
    if locs != [] {
      if OpenChain(differentFs, root, locs[0].chain) {
        OpenChainPrefix(differentFs, root, c, locs[0].chain);
      }
      NoneScannedBelow(differentFs, root, locs[1..], c);
    }
  }

  /** The walk from an entry whose ancestors all let it through reports
      exactly the scanned files of its subtree. */
  lemma {:induction false} ScanNodeIsReference(differentFs: FsTest, root: string, p: string, n: Node, chain: seq<Ancestor>)
    requires OpenChain(differentFs, root, chain)
    ensures ScanNode(differentFs, root, p, n, chain == []) ==
      ScannedEntries(differentFs, root, Flatten(p, n, chain))
    decreases n, 1
  {
    var locs := Flatten(p, n, chain);
    assert locs[1..] == if n.Dir? then FlattenKids(p, n.children, chain + [Ancestor(p, n.readable)]) else [];
    match n
    case File(_, _, _) =>
    case Dir(_, readable, kids) =>
      var below := chain + [Ancestor(p, readable)];
      if !readable || (chain != [] && differentFs(root, p)) {
        assert !OpenChain(differentFs, root, below) by {
          assert below[|chain|] == Ancestor(p, readable);
        }
        NoneScannedBelow(differentFs, root, locs[1..], below);
      } else {
        assert OpenChain(differentFs, root, below) by {
          forall i | 0 <= i < |below|
            ensures below[i].readable && (i == 0 || !differentFs(root, below[i].path))
          {
            if i < |chain| {
              assert below[i] == chain[i];
            }
          }
        }
        ScanKidsIsReference(differentFs, root, p, kids, below);
      }
  }

  lemma {:induction false} ScanKidsIsReference(differentFs: FsTest, root: string, p: string, kids: seq<Node>, chain: seq<Ancestor>)
    requires chain != [] && OpenChain(differentFs, root, chain)
    ensures ScanKids(differentFs, root, p, kids) == ScannedEntries(differentFs, root, FlattenKids(p, kids, chain))
    decreases kids, 0
  {
    if kids != [] {
      var q := Join(p, kids[0].name);
      ScanNodeIsReference(differentFs, root, q, kids[0], chain);
      ScanKidsIsReference(differentFs, root, p, kids[1..], chain);
      ScannedEntriesAppend(differentFs, root, Flatten(q, kids[0], chain), FlattenKids(p, kids[1..], chain));
    }
  }

  /** The scan reports exactly one entry per regular file whose ancestors are
      all readable and, below the root, on the root's filesystem, carrying that
      file's size, in walk order; directories and non-regular files never
      appear. */
  lemma ScanFilesIsReference(differentFs: FsTest, root: string, tree: Node)
    ensures ScanFiles(differentFs, root, tree) == ScannedEntries(differentFs, root, Flatten(root, tree, []))
  {
    ScanNodeIsReference(differentFs, root, root, tree, []);
  }
}

=== FILE: file_tree.dfy ===
/** The filesystem as the two walks see it: an immutable tree of entries in
    the order `filepath.Walk` visits them, with a flattened reading of it that
    the walk lemmas compare against. */
module FileTree {
  import opened Boundary
  import opened Entries

  /** A directory entry. A `File` is any non-directory (`regular` is false for
      symbolic links, devices, sockets and pipes), carrying the size `Lstat`
      reports. A `Dir` is `readable` when its names can be listed. Children
      are listed in the order `filepath.Walk` visits them, sorted by name with
      no name twice; this is a convention of the tree and is not checked. */
  datatype Node =
    | File(name: string, size: nat, regular: bool)
    | Dir(name: string, readable: bool, children: seq<Node>)

  /** `filepath.Join(dir, name)` for a directory path in clean form and a
      name read from a directory listing: the current directory `.` adds no
      prefix, since the join is cleaned. */
  function Join(dir: string, name: string): (path: string)
    ensures |path| >= |name| && path[|path| - |name|..] == name
    ensures dir == "." ==> path == name
    ensures Under(dir, path)
  {
    if dir == "" || dir == "." then name
    else if dir[|dir| - 1] == '/' then dir + name
    else dir + "/" + name
  }

  /** `path` is `dir` or lies in it: it continues `dir` past a separator,
      or `dir` is the current directory `.` (or empty), in which every
      relative path lies. */
  predicate Under(dir: string, path: string) {
    || dir == "" || dir == "." || path == dir
    || dir + "/" <= path
    || (|dir| > 0 && dir[|dir| - 1] == '/' && dir <= path)
  }

  /** A sibling that merely shares a name prefix does not lie in the directory. */
  lemma SiblingNotUnder()
    ensures Under("/r", "/r/a") && !Under("/r", "/rx/a")
  {
    assert ("/r" + "/")[2] != "/rx/a"[2];
  }

  /** What lies in a child directory lies in its parent. */
  lemma UnderJoin(dir: string, name: string, path: string)
    requires Under(Join(dir, name), path)
    ensures Under(dir, path)
  {
  }

  /** Entries that lie in a child's joined path lie in its parent. */
  lemma UnderJoinAll(dir: string, name: string, entries: seq<DiskEntry>)
    requires forall i :: 0 <= i < |entries| ==> Under(Join(dir, name), entries[i].path)
    ensures forall i :: 0 <= i < |entries| ==> Under(dir, entries[i].path)
  {
    forall i | 0 <= i < |entries|
      ensures Under(dir, entries[i].path)
    {
      UnderJoin(dir, name, entries[i].path);
    }
  }

  /** The bytes of every non-directory in the subtree at `n`, whatever the
      walks would skip: the most any walk can count there. */
  function TreeBytes(n: Node): nat
    decreases n, 1
  {
    match n
    case File(_, size, _) => size
    case Dir(_, _, kids) => KidsBytes(kids)
  }

  function KidsBytes(kids: seq<Node>): nat
    decreases kids, 0
  {
    if kids == [] then 0 else TreeBytes(kids[0]) + KidsBytes(kids[1..])
  }

  /** A directory on the way from the walk root down to an entry. */
  datatype Ancestor = Ancestor(path: string, readable: bool)

  /** An entry of the tree with its path and the directories above it, the
      walk root first; the length of `chain` is the entry's depth. */
  datatype Located = Located(path: string, node: Node, chain: seq<Ancestor>)

  /** Every entry of the subtree at `n`, in pre-order, which is the order
      `filepath.Walk` visits them. */
  function Flatten(p: string, n: Node, chain: seq<Ancestor>): (locs: seq<Located>)
    ensures |locs| >= 1 && locs[0] == Located(p, n, chain)
    ensures forall k :: 0 <= k < |locs| ==> chain <= locs[k].chain
    decreases n, 1
  {
    [Located(p, n, chain)] +
      (if n.Dir? then FlattenKids(p, n.children, chain + [Ancestor(p, n.readable)]) else [])
  }

  /** The entries below the children `kids` of the directory at `p`. */
  function FlattenKids(p: string, kids: seq<Node>, chain: seq<Ancestor>): (locs: seq<Located>)
    ensures forall k :: 0 <= k < |locs| ==> chain <= locs[k].chain
    decreases kids, 0
  {
    if kids == [] then []
    else Flatten(Join(p, kids[0].name), kids[0], chain) + FlattenKids(p, kids[1..], chain)
  }

  /** No ancestor stopped the walk rooted at `top` from entering: each one is
      readable, and each one below `top` is on `top`'s filesystem. */
  predicate OpenChain(differentFs: FsTest, top: string, chain: seq<Ancestor>) {
    forall i :: 0 <= i < |chain| ==> chain[i].readable && (i == 0 || !differentFs(top, chain[i].path))
  }

  lemma OpenChainPrefix(differentFs: FsTest, top: string, c: seq<Ancestor>, longer: seq<Ancestor>)
    requires c <= longer && OpenChain(differentFs, top, longer)
    ensures OpenChain(differentFs, top, c)
  {
    forall i | 0 <= i < |c|
      ensures c[i].readable && (i == 0 || !differentFs(top, c[i].path))
    {
      assert c[i] == longer[i];
    }
  }
}

=== FILE: growth.dfy ===
/** `analyzeGrowth`: join the current snapshot with the previous one on the
    path, keep the strictly positive size deltas, and select the largest. */
module Growth {
  import opened Wrappers
  import opened Decimal
  import opened Entries
  import opened TopN
  import opened Snapshot

  const TwoTo64: int := 0x1_0000_0000_0000_0000

  /** The `int64` Go computes for the exact value `v`: two's-complement
      wrap-around. */
  function Wrap64(v: int): (r: int)
    ensures InInt64(r)
    ensures (v - r) % TwoTo64 == 0
    ensures InInt64(v) ==> r == v
  {
    (v - MinInt64) % TwoTo64 + MinInt64
  }

  /** No later entry of `s` has the path of entry `i`. */
  predicate IsLast(s: seq<DiskEntry>, i: int)
    requires 0 <= i < |s|
  {
    forall j :: i < j < |s| ==> s[j].path != s[i].path
  }

  /** `prevMap`: the previous snapshot as a path-to-size map, filled in order so
      that the last entry for a path wins. */
  function PreviousSizes(previous: seq<DiskEntry>): (m: map<string, int>)
    ensures forall i :: 0 <= i < |previous| ==> previous[i].path in m
    ensures forall p :: p in m ==> exists i :: 0 <= i < |previous| && previous[i].path == p
    ensures forall i :: 0 <= i < |previous| && IsLast(previous, i) ==>
      m[previous[i].path] == previous[i].size
  {
    if previous == [] then map[]
    else
      var n := |previous| - 1;
      var inner := PreviousSizes(previous[..n]);
      var m := inner[previous[n].path := previous[n].size];
      PreviousSizesKeys(previous, inner, m);
      PreviousSizesValues(previous, inner, m);
      m
  }

  lemma PreviousSizesKeys(previous: seq<DiskEntry>, inner: map<string, int>, m: map<string, int>)
    requires |previous| > 0
    requires var n := |previous| - 1;
      && (forall i :: 0 <= i < n ==> previous[..n][i].path in inner)
      && (forall p :: p in inner ==> exists i :: 0 <= i < n && previous[..n][i].path == p)
      && m == inner[previous[n].path := previous[n].size]
    ensures forall i :: 0 <= i < |previous| ==> previous[i].path in m
    ensures forall p :: p in m ==> exists i :: 0 <= i < |previous| && previous[i].path == p
  {
    var n := |previous| - 1;
    forall i | 0 <= i < n
      ensures previous[i].path in m
    {
      assert previous[..n][i] == previous[i];
    }
    forall p | p in m
      ensures exists i :: 0 <= i < |previous| && previous[i].path == p
    {
      if p != previous[n].path {
        var i :| 0 <= i < n && previous[..n][i].path == p;
        assert previous[i].path == p;
      }
    }
  }

  lemma PreviousSizesValues(previous: seq<DiskEntry>, inner: map<string, int>, m: map<string, int>)
    requires |previous| > 0
    requires var n := |previous| - 1;
      && (forall i :: 0 <= i < n ==> previous[..n][i].path in inner)
      && (forall i :: 0 <= i < n && IsLast(previous[..n], i) ==>
            previous[..n][i].path in inner && inner[previous[..n][i].path] == previous[..n][i].size)
      && m == inner[previous[n].path := previous[n].size]
    ensures forall i :: 0 <= i < |previous| && IsLast(previous, i) ==>
      m[previous[i].path] == previous[i].size
  {
    var n := |previous| - 1;
    forall i | 0 <= i < |previous| && IsLast(previous, i)
      ensures previous[i].path in m && m[previous[i].path] == previous[i].size
    {
      if i < n {
        assert previous[..n][i] == previous[i];
        assert IsLast(previous[..n], i);
      }
    }
  }

  /** The growth of one path: current size minus previous size, in `int64`,
      which wraps around when the true difference does not fit. */
  function Delta(currentSize: int, previousSize: int): (d: int)
    ensures InInt64(d)
    ensures (currentSize - previousSize - d) % TwoTo64 == 0
    ensures InInt64(currentSize - previousSize) ==> d == currentSize - previousSize
  {
    Wrap64(currentSize - previousSize)
  }

  /** `growthEntries` before sorting: each current entry whose path the previous
      snapshot has and whose delta is strictly positive, carrying that delta. */
  function GrowthEntries(current: seq<DiskEntry>, prevSizes: map<string, int>): (growth: seq<DiskEntry>)
    ensures |growth| <= |current|
    ensures forall k :: 0 <= k < |growth| ==> growth[k].path in prevSizes && growth[k].size > 0
    ensures forall k :: 0 <= k < |growth| ==>
      exists i :: 0 <= i < |current| && current[i].path == growth[k].path &&
        growth[k].size == Delta(current[i].size, prevSizes[current[i].path])
    ensures forall i :: (0 <= i < |current| && current[i].path in prevSizes &&
        Delta(current[i].size, prevSizes[current[i].path]) > 0) ==>
      DiskEntry(current[i].path, Delta(current[i].size, prevSizes[current[i].path])) in growth
  {
    if current == [] then []
    else
      var e := current[0];
      var rest := GrowthEntries(current[1..], prevSizes);
      assert forall i :: 1 <= i < |current| ==> current[1..][i - 1] == current[i];
      if e.path in prevSizes && Delta(e.size, prevSizes[e.path]) > 0 then
        [DiskEntry(e.path, Delta(e.size, prevSizes[e.path]))] + rest
      else rest
  }

  /** Growth is computed entry by entry: the growth of concatenated current
      snapshots is the concatenation of their growths. */
  lemma {:induction false} GrowthEntriesAppend(a: seq<DiskEntry>, b: seq<DiskEntry>, prevSizes: map<string, int>)
    ensures GrowthEntries(a + b, prevSizes) == GrowthEntries(a, prevSizes) + GrowthEntries(b, prevSizes)
  {
    if a == [] {
      assert a + b == b;
    } else {
      assert (a + b)[0] == a[0];
      assert (a + b)[1..] == a[1..] + b;
      GrowthEntriesAppend(a[1..], b, prevSizes);
    }
  }

  /** A single current entry contributes one growth entry, with its delta,
      when its path was seen before and it grew, and nothing otherwise. */
  lemma GrowthEntriesOne(e: DiskEntry, prevSizes: map<string, int>)
    ensures e.path in prevSizes && Delta(e.size, prevSizes[e.path]) > 0 ==>
      GrowthEntries([e], prevSizes) == [DiskEntry(e.path, Delta(e.size, prevSizes[e.path]))]
    ensures !(e.path in prevSizes && Delta(e.size, prevSizes[e.path]) > 0) ==>
      GrowthEntries([e], prevSizes) == []
  {
  }

  /** `analyzeGrowth`: a file that cannot be opened is an error; otherwise the
      `maxItems` largest positive deltas, largest first. */
  function AnalyzeGrowth(currentFile: Option<string>, previousFile: Option<string>, maxItems: nat)
    : (r: Result<seq<DiskEntry>, LoadError>)
    ensures r.Failure? <==> currentFile.None? || previousFile.None?
    ensures r.Success? ==> |r.value| <= maxItems && SortedDesc(r.value)
    ensures r.Success? ==> forall k :: 0 <= k < |r.value| ==> r.value[k].size > 0
  {
    match Load(currentFile)
    case Failure(err) => Failure(err)
    case Success(current) =>
      match Load(previousFile)
      case Failure(err) => Failure(err)
      case Success(previous) =>
        var growth := GrowthEntries(current, PreviousSizes(previous));
        var top := SelectTop(growth, maxItems);
        SelectedPositive(growth, top);
        Success(top)
  }

  lemma SelectedPositive(growth: seq<DiskEntry>, top: seq<DiskEntry>)
    requires forall k :: 0 <= k < |growth| ==> growth[k].size > 0
    requires multiset(top) <= multiset(growth)
    ensures forall k :: 0 <= k < |top| ==> top[k].size > 0
  {
    forall k | 0 <= k < |top|
      ensures top[k].size > 0
    {
      assert top[k] in multiset(top);
      assert top[k] in growth;
    }
  }

  /** A growth entry comes from a current entry and the last previous entry
      with the same path. */
  lemma GrowthEntrySound(current: seq<DiskEntry>, previous: seq<DiskEntry>, g: DiskEntry)
    requires g in GrowthEntries(current, PreviousSizes(previous))
    ensures g.size > 0
    ensures exists i, j ::
      && 0 <= i < |current| && 0 <= j < |previous| && IsLast(previous, j)
      && current[i].path == g.path == previous[j].path
      && g.size == Delta(current[i].size, previous[j].size)
  {
    var prevSizes := PreviousSizes(previous);
    var i := GrowthEntryOrigin(current, prevSizes, g);
    var j :| 0 <= j < |previous| && previous[j].path == g.path;
    var last := LastIndexOf(previous, j);
    assert prevSizes[g.path] == previous[last].size;
  }

  /** The current entry a growth entry comes from. */
  lemma GrowthEntryOrigin(current: seq<DiskEntry>, prevSizes: map<string, int>, g: DiskEntry) returns (i: nat)
    requires g in GrowthEntries(current, prevSizes)
    ensures g.size > 0 && g.path in prevSizes
    ensures i < |current| && current[i].path == g.path
    ensures g.size == Delta(current[i].size, prevSizes[g.path])
  {
    var growth := GrowthEntries(current, prevSizes);
    var m :| 0 <= m < |growth| && growth[m] == g;
    i :| 0 <= i < |current| && current[i].path == g.path &&
      g.size == Delta(current[i].size, prevSizes[current[i].path]);
  }

  /** Every reported growth is for a path present in both snapshots, and equals
      the current size minus the size the previous snapshot last recorded for it. */
  lemma GrowthSound(currentText: string, previousText: string, maxItems: nat, k: nat)
    requires var r := AnalyzeGrowth(Some(currentText), Some(previousText), maxItems);
      r.Success? && k < |r.value|
    ensures var g := AnalyzeGrowth(Some(currentText), Some(previousText), maxItems).value[k];
      var current, previous := Parse(currentText), Parse(previousText);
      && g.size > 0
      && exists i, j ::
           && 0 <= i < |current| && 0 <= j < |previous| && IsLast(previous, j)
           && current[i].path == g.path == previous[j].path
           && g.size == Delta(current[i].size, previous[j].size)
  {
    AnalyzeTexts(currentText, previousText, maxItems);
    SelectedSound(Parse(currentText), Parse(previousText), maxItems, k);
  }

  lemma SelectedSound(current: seq<DiskEntry>, previous: seq<DiskEntry>, maxItems: nat, k: nat)
    requires k < |SelectTop(GrowthEntries(current, PreviousSizes(previous)), maxItems)|
    ensures var g := SelectTop(GrowthEntries(current, PreviousSizes(previous)), maxItems)[k];
      && g.size > 0
      && exists i, j ::
           && 0 <= i < |current| && 0 <= j < |previous| && IsLast(previous, j)
           && current[i].path == g.path == previous[j].path
           && g.size == Delta(current[i].size, previous[j].size)
  {
    var growth := GrowthEntries(current, PreviousSizes(previous));
    var top := SelectTop(growth, maxItems);
    assert top[k] in multiset(top);
    assert top[k] in growth;
    GrowthEntrySound(current, previous, top[k]);
  }

  /** Both snapshot files open: the report is the selection from the growth
      of the parsed entries. */
  lemma AnalyzeTexts(currentText: string, previousText: string, maxItems: nat)
    ensures AnalyzeGrowth(Some(currentText), Some(previousText), maxItems) ==
      Success(SelectTop(GrowthEntries(Parse(currentText), PreviousSizes(Parse(previousText))), maxItems))
  {
  }

  /** The last index holding the path of entry `j`. */
  function LastIndexOf(s: seq<DiskEntry>, j: nat): (last: nat)
    requires j < |s|
    ensures j <= last < |s| && s[last].path == s[j].path && IsLast(s, last)
    decreases |s| - j
  {
    if exists k :: j < k < |s| && s[k].path == s[j].path then
      var k :| j < k < |s| && s[k].path == s[j].path;
      LastIndexOf(s, k)
    else j
  }

  /** A path the previous snapshot lacks never shows growth. */
  lemma NewPathsNeverGrow(currentText: string, previousText: string, maxItems: nat, path: string)
    requires forall j :: 0 <= j < |Parse(previousText)| ==> Parse(previousText)[j].path != path
    requires AnalyzeGrowth(Some(currentText), Some(previousText), maxItems).Success?
    ensures forall k :: 0 <= k < |AnalyzeGrowth(Some(currentText), Some(previousText), maxItems).value| ==>
      AnalyzeGrowth(Some(currentText), Some(previousText), maxItems).value[k].path != path
  {
    forall k | 0 <= k < |AnalyzeGrowth(Some(currentText), Some(previousText), maxItems).value|
      ensures AnalyzeGrowth(Some(currentText), Some(previousText), maxItems).value[k].path != path
    {
      GrowthSound(currentText, previousText, maxItems, k);
    }
  }

  /** For sizes a scan can produce (non-negative `int64`s) the subtraction does
      not wrap: the growth is the exact difference and is positive exactly when
      the path grew. */
  lemma DeltaExact(currentSize: int, previousSize: int)
    requires 0 <= currentSize <= MaxInt64 && 0 <= previousSize <= MaxInt64
    ensures Delta(currentSize, previousSize) == currentSize - previousSize
    ensures Delta(currentSize, previousSize) > 0 <==> currentSize > previousSize
  {
  }

  /** A current entry that grew is a candidate: the only growth `analyzeGrowth`
      drops is growth smaller than every delta it reports. */
  lemma GrowthComplete(currentText: string, previousText: string, maxItems: nat, i: nat)
    requires i < |Parse(currentText)|
    requires var e := Parse(currentText)[i];
      var prevSizes := PreviousSizes(Parse(previousText));
      e.path in prevSizes && Delta(e.size, prevSizes[e.path]) > 0
    ensures var e := Parse(currentText)[i];
      var prevSizes := PreviousSizes(Parse(previousText));
      var top := AnalyzeGrowth(Some(currentText), Some(previousText), maxItems).value;
      var g := DiskEntry(e.path, Delta(e.size, prevSizes[e.path]));
      g in top || (|top| == maxItems && forall k :: 0 <= k < |top| ==> g.size <= top[k].size)
  {
    var current, previous := Parse(currentText), Parse(previousText);
    var prevSizes := PreviousSizes(previous);
    var growth := GrowthEntries(current, prevSizes);
    var e := current[i];
    var g := DiskEntry(e.path, Delta(e.size, prevSizes[e.path]));
    assert g in growth;
    AnalyzeTexts(currentText, previousText, maxItems);
    KeptOrOutranked(growth, maxItems, g);
  }

  /** A path that was 1000 bytes and is now 1500 grows by 500; a path new
      in the current snapshot is not reported, however large. */
  lemma GrowthSample()
    ensures AnalyzeGrowth(Some(Save([DiskEntry("x", 1500), DiskEntry("y", 200)])),
                          Some(Save([DiskEntry("x", 1000)])), 10)
      == Success([DiskEntry("x", 500)])
  {
    var current := [DiskEntry("x", 1500), DiskEntry("y", 200)];
    var previous := [DiskEntry("x", 1000)];
    SampleSaveable(current);
    SampleSaveable(previous);
    RoundTrip(current);
    RoundTrip(previous);
    SampleGrowthEntries();
    var top := [DiskEntry("x", 500)];
    assert Sort(top) == top;
  }

  lemma SampleSaveable(entries: seq<DiskEntry>)
    requires forall i :: 0 <= i < |entries| ==> (entries[i].path == "x" || entries[i].path == "y") && 0 <= entries[i].size <= 1500
    ensures forall i :: 0 <= i < |entries| ==> Saveable(entries[i])
  {
  }

  lemma SampleGrowthEntries()
    ensures GrowthEntries([DiskEntry("x", 1500), DiskEntry("y", 200)], PreviousSizes([DiskEntry("x", 1000)]))
      == [DiskEntry("x", 500)]
  {
    var current := [DiskEntry("x", 1500), DiskEntry("y", 200)];
    var previous := [DiskEntry("x", 1000)];
    var m := PreviousSizes(previous);
    assert previous[..0] == [];
    assert m == map["x" := 1000];
    assert "y" != "x";
    var tail := current[1..];
    assert tail[1..] == [];
    assert GrowthEntries(tail, m) == [];
    assert Delta(1500, 1000) == 500;
  }
}

=== FILE: lsof.dfy ===
/** `parseLsofOutput`: the records of `lsof -F pcun` field output, one line
    per field, the first byte naming the field. */
module Lsof {
  import opened Wrappers
  import opened Text

  /** A process holding the file open. */
  datatype ProcessInfo = ProcessInfo(pid: string, user: string, command: string, access: string)

  /** Go's zero `ProcessInfo`, the record fields seen before any `p` line go to. */
  const Blank := ProcessInfo("", "", "", "")

  /** The access modes a returned record can carry. */
  const Modes: set<string> := {"?", "r", "w", "rw"}

  /** The record a `p` line starts: Go's zero record with that PID and the
      access still unknown, `?` until an `f` line names a mode. */
  function Fresh(pid: string): (rec: ProcessInfo)
    ensures rec.pid == pid && rec.access == "?"
    ensures rec.user == "" && rec.command == ""
    ensures Returnable(rec) <==> pid != ""
  {
    ProcessInfo(pid, "", "", "?")
  }

  predicate HasTag(line: string, tag: char) {
    |line| > 0 && line[0] == tag
  }

  /** The access an `f` field value names, `r` taking priority over `w` and
      `w` over `u`; `None` when it names none of them. */
  function ModeOf(value: string): (mode: Option<string>)
    ensures mode.Some? ==> mode.value in Modes - {"?"}
    ensures mode.None? <==> 'r' !in value && 'w' !in value && 'u' !in value
    ensures 'r' in value ==> mode == Some("r")
    ensures 'r' !in value && 'w' in value ==> mode == Some("w")
    ensures 'r' !in value && 'w' !in value && 'u' in value ==> mode == Some("rw")
  {
    if 'r' in value then Some("r")
    else if 'w' in value then Some("w")
    else if 'u' in value then Some("rw")
    else None
  }

  /** A line that is not a `p` line, applied to the record being built: `c`
      sets the command, `u` the user, `f` the access mode; empty lines and
      other fields change nothing. */
  function ApplyField(rec: ProcessInfo, line: string): (r: ProcessInfo)
    requires !HasTag(line, 'p')
    ensures r.pid == rec.pid
  {
    if line == "" then rec
    else if line[0] == 'c' then rec.(command := line[1..])
    else if line[0] == 'u' then rec.(user := line[1..])
    else if line[0] == 'f' then rec.(access := ModeOf(line[1..]).GetOr(rec.access))
    else rec
  }

  /** Keep the record built so far when it has a PID. */
  function Flush(done: seq<ProcessInfo>, rec: ProcessInfo): (r: seq<ProcessInfo>)
    ensures done <= r && |r| <= |done| + 1
    ensures |r| == |done| + 1 <==> rec.pid != ""
    ensures |r| == |done| + 1 ==> r[|done|] == rec
  {
    if rec.pid != "" then done + [rec] else done
  }

  predicate Returnable(rec: ProcessInfo) {
    rec.pid != "" && rec.access in Modes
  }

  /** The loop over the lines, with the records kept so far and the current one. */
  function Run(done: seq<ProcessInfo>, rec: ProcessInfo, lines: seq<string>): (r: seq<ProcessInfo>)
    ensures done <= r
    ensures forall i :: |done| <= i < |r| ==> r[i].pid != ""
    decreases |lines|
  {
    if lines == [] then Flush(done, rec)
    else if HasTag(lines[0], 'p') then Run(Flush(done, rec), Fresh(lines[0][1..]), lines[1..])
    else Run(done, ApplyField(rec, lines[0]), lines[1..])
  }

  /** Only records with a PID and one of the four modes leave the loop. */
  lemma {:induction false} RunReturnable(done: seq<ProcessInfo>, rec: ProcessInfo, lines: seq<string>)
    requires forall k :: 0 <= k < |done| ==> Returnable(done[k])
    requires rec.pid != "" ==> rec.access in Modes
    ensures forall k :: 0 <= k < |Run(done, rec, lines)| ==> Returnable(Run(done, rec, lines)[k])
    decreases |lines|
  {
    if lines == [] {
    } else if HasTag(lines[0], 'p') {
      RunReturnable(Flush(done, rec), Fresh(lines[0][1..]), lines[1..]);
    } else {
      RunReturnable(done, ApplyField(rec, lines[0]), lines[1..]);
    }
  }

  /** `parseLsofOutput`: every record it returns has a PID and one of the four
      access modes. */
  function ParseLsofOutput(output: string): (processes: seq<ProcessInfo>)
    ensures forall k :: 0 <= k < |processes| ==> processes[k].pid != ""
    ensures forall k :: 0 <= k < |processes| ==> processes[k].access in Modes
  {
    var lines := Split(output, '\n');
    RunReturnable([], Blank, lines);
    Run([], Blank, lines)
  }

  // ---------------------------------------------------------------------
  // A second reading of the format: split the lines into blocks, each a `p`
  // line and the field lines up to the next `p` line, and build one record
  // per block from the last value of each field in it.

  predicate NoPidLine(lines: seq<string>) {
    forall m :: 0 <= m < |lines| ==> !HasTag(lines[m], 'p')
  }

  /** Index of the first `p` line at or after `i`, or `|lines|`. */
  function NextPidLine(lines: seq<string>, i: nat): (j: nat)
    requires i <= |lines|
    ensures i <= j <= |lines|
    ensures NoPidLine(lines[i..j])
    ensures j < |lines| ==> HasTag(lines[j], 'p')
    decreases |lines| - i
  {
    if i == |lines| || HasTag(lines[i], 'p') then i
    else
      var j := NextPidLine(lines, i + 1);
      assert forall m :: 0 <= m < j - i ==> lines[i..j][m] == lines[i + m];
      j
  }

  /** The value of the last `tag` field in `block`, or `default`. */
  function LastValue(block: seq<string>, tag: char, default: string): string {
    if block == [] then default
    else if HasTag(block[|block| - 1], tag) then block[|block| - 1][1..]
    else LastValue(block[..|block| - 1], tag, default)
  }

  /** The mode of the last `f` field in `block` that names one, or `default`. */
  function LastMode(block: seq<string>, default: string): string {
    if block == [] then default
    else if HasTag(block[|block| - 1], 'f') && ModeOf(block[|block| - 1][1..]).Some? then
      ModeOf(block[|block| - 1][1..]).value
    else LastMode(block[..|block| - 1], default)
  }

  /** The field lines of one block applied in order to `rec`. */
  function ApplyFields(rec: ProcessInfo, block: seq<string>): ProcessInfo
    requires NoPidLine(block)
  {
    if block == [] then rec
    else ApplyField(ApplyFields(rec, block[..|block| - 1]), block[|block| - 1])
  }

  /** The record a block builds: its PID, and for each other field the value of
      the last line that set it. */
  lemma {:induction false} ApplyFieldsLastWins(rec: ProcessInfo, block: seq<string>)
    requires NoPidLine(block)
    ensures ApplyFields(rec, block) == ProcessInfo(
      rec.pid,
      LastValue(block, 'u', rec.user),
      LastValue(block, 'c', rec.command),
      LastMode(block, rec.access))
  {
    if block != [] {
      ApplyFieldsLastWins(rec, block[..|block| - 1]);
    }
  }

  /** The records of the blocks that have a PID, in block order; lines before
      the first `p` line belong to no block. */
  function Records(lines: seq<string>): seq<ProcessInfo>
    decreases |lines|
  {
    if lines == [] then []
    else if !HasTag(lines[0], 'p') then Records(lines[1..])
    else
      var end := NextPidLine(lines, 1);
      Flush([], ApplyFields(Fresh(lines[0][1..]), lines[1..end])) + Records(lines[end..])
  }

  lemma {:induction false} ApplyFieldsCons(rec: ProcessInfo, block: seq<string>)
    requires |block| > 0 && NoPidLine(block)
    ensures ApplyFields(rec, block) == ApplyFields(ApplyField(rec, block[0]), block[1..])
    decreases |block|
  {
    if |block| > 1 {
      var init := block[..|block| - 1];
      assert init[0] == block[0];
      assert init[1..] == block[1..][..|block| - 2];
      ApplyFieldsCons(rec, init);
    }
  }

  lemma {:induction false} RecordsSkipFields(lines: seq<string>, k: nat)
    requires k <= |lines| && NoPidLine(lines[..k])
    ensures Records(lines) == Records(lines[k..])
    decreases k
  {
    if k > 0 {
      assert lines[..k][0] == lines[0];
      assert lines[1..][..k - 1] == lines[..k][1..];
      RecordsSkipFields(lines[1..], k - 1);
      assert lines[1..][k - 1..] == lines[k..];
    }
  }

  lemma NextPidLineShift(lines: seq<string>, i: nat)
    requires 0 < |lines| && i + 1 <= |lines|
    ensures NextPidLine(lines, i + 1) == 1 + NextPidLine(lines[1..], i)
    decreases |lines| - i
  {
    if i + 1 < |lines| && !HasTag(lines[i + 1], 'p') {
      NextPidLineShift(lines, i + 1);
    }
  }

  /** The streaming loop and the block reading agree: from any point, the loop
      finishes the current record with the field lines up to the next `p`
      line, then emits the records of the remaining blocks. */
  lemma {:induction false} RunIsRecords(done: seq<ProcessInfo>, rec: ProcessInfo, lines: seq<string>)
    ensures var k := NextPidLine(lines, 0);
      Run(done, rec, lines) == Flush(done, ApplyFields(rec, lines[..k])) + Records(lines[k..])
    decreases |lines|
  {
    if lines == [] {
    } else if HasTag(lines[0], 'p') {
      RunIsRecords(Flush(done, rec), Fresh(lines[0][1..]), lines[1..]);
      RunAtPidLine(done, rec, lines);
    } else {
      RunIsRecords(done, ApplyField(rec, lines[0]), lines[1..]);
      RunAtFieldLine(done, rec, lines);
    }
  }

  lemma FlushTwice(done: seq<ProcessInfo>, a: ProcessInfo, b: ProcessInfo, tail: seq<ProcessInfo>)
    ensures Flush(Flush(done, a), b) + tail == Flush(done, a) + (Flush([], b) + tail)
  {
  }

  lemma RunAtPidLine(done: seq<ProcessInfo>, rec: ProcessInfo, lines: seq<string>)
    requires |lines| > 0 && HasTag(lines[0], 'p')
    requires var rest, next := lines[1..], Fresh(lines[0][1..]);
      var k := NextPidLine(rest, 0);
      Run(Flush(done, rec), next, rest) ==
        Flush(Flush(done, rec), ApplyFields(next, rest[..k])) + Records(rest[k..])
    ensures Run(done, rec, lines) == Flush(done, ApplyFields(rec, lines[..0])) + Records(lines[0..])
  {
    var rest, next := lines[1..], Fresh(lines[0][1..]);
    var k := NextPidLine(rest, 0);
    var built := ApplyFields(next, rest[..k]);
    RecordsAtPidLine(lines);
    FlushTwice(done, rec, built, Records(rest[k..]));
    assert lines[..0] == [] && lines[0..] == lines;
  }

  lemma RecordsAtPidLine(lines: seq<string>)
    requires |lines| > 0 && HasTag(lines[0], 'p')
    ensures var rest := lines[1..];
      var k := NextPidLine(rest, 0);
      Records(lines) == Flush([], ApplyFields(Fresh(lines[0][1..]), rest[..k])) + Records(rest[k..])
  {
    var rest := lines[1..];
    var k := NextPidLine(rest, 0);
    RecordsUnfold(lines);
    NextPidLineShift(lines, 0);
    PidBlockSlices(lines, k);
  }

  lemma RecordsUnfold(lines: seq<string>)
    requires |lines| > 0 && HasTag(lines[0], 'p')
    ensures var end := NextPidLine(lines, 1);
      Records(lines) == Flush([], ApplyFields(Fresh(lines[0][1..]), lines[1..end])) + Records(lines[end..])
  {
  }

  lemma PidBlockSlices(lines: seq<string>, k: nat)
    requires 0 < |lines| && k + 1 <= |lines|
    ensures lines[1..k + 1] == lines[1..][..k]
    ensures lines[k + 1..] == lines[1..][k..]
  {
  }

  lemma RunAtFieldLine(done: seq<ProcessInfo>, rec: ProcessInfo, lines: seq<string>)
    requires |lines| > 0 && !HasTag(lines[0], 'p')
    requires var rest := lines[1..];
      var k := NextPidLine(rest, 0);
      Run(done, ApplyField(rec, lines[0]), rest) ==
        Flush(done, ApplyFields(ApplyField(rec, lines[0]), rest[..k])) + Records(rest[k..])
    ensures var k := NextPidLine(lines, 0);
      Run(done, rec, lines) == Flush(done, ApplyFields(rec, lines[..k])) + Records(lines[k..])
  {
    RunFieldStep(done, rec, lines);
    FieldBlockRewrite(done, rec, lines);
  }

  lemma FieldBlockRewrite(done: seq<ProcessInfo>, rec: ProcessInfo, lines: seq<string>)
    requires |lines| > 0 && !HasTag(lines[0], 'p')
    ensures var rest := lines[1..];
      var j, k := NextPidLine(rest, 0), NextPidLine(lines, 0);
      Flush(done, ApplyFields(ApplyField(rec, lines[0]), rest[..j])) + Records(rest[j..]) ==
        Flush(done, ApplyFields(rec, lines[..k])) + Records(lines[k..])
  {
    var rest := lines[1..];
    var j := NextPidLine(rest, 0);
    NextPidLineShift(lines, 0);
    var k := NextPidLine(lines, 0);
    assert k == j + 1;
    FieldBlockSlices(lines, k);
    ApplyFieldsCons(rec, lines[..k]);
  }

  lemma RunFieldStep(done: seq<ProcessInfo>, rec: ProcessInfo, lines: seq<string>)
    requires |lines| > 0 && !HasTag(lines[0], 'p')
    ensures Run(done, rec, lines) == Run(done, ApplyField(rec, lines[0]), lines[1..])
  {
  }

  lemma FieldBlockSlices(lines: seq<string>, k: nat)
    requires 1 <= k <= |lines|
    ensures lines[1..][..k - 1] == lines[..k][1..]
    ensures lines[..k][0] == lines[0]
    ensures lines[1..][k - 1..] == lines[k..]
  {
  }

  lemma {:induction false} ApplyFieldsKeepsPid(rec: ProcessInfo, block: seq<string>)
    requires NoPidLine(block)
    ensures ApplyFields(rec, block).pid == rec.pid
  {
    if block != [] {
      ApplyFieldsKeepsPid(rec, block[..|block| - 1]);
    }
  }

  /** `parseLsofOutput` returns exactly one record per block whose `p` line
      has a non-empty value, in order, built from that block's fields. */
  lemma ParseIsRecords(output: string)
    ensures ParseLsofOutput(output) == Records(Split(output, '\n'))
  {
    var lines := Split(output, '\n');
    var k := NextPidLine(lines, 0);
    RunIsRecords([], Blank, lines);
    ApplyFieldsKeepsPid(Blank, lines[..k]);
    RecordsSkipFields(lines, k);
    assert lines[..k] == lines[0..k];
  }

  /** The values of the `p` lines that are not empty, in order. */
  function PidValues(lines: seq<string>): seq<string> {
    if lines == [] then []
    else if HasTag(lines[0], 'p') && lines[0][1..] != "" then [lines[0][1..]] + PidValues(lines[1..])
    else PidValues(lines[1..])
  }

  function Pids(processes: seq<ProcessInfo>): seq<string> {
    if processes == [] then [] else [processes[0].pid] + Pids(processes[1..])
  }

  lemma {:induction false} PidsAppend(a: seq<ProcessInfo>, b: seq<ProcessInfo>)
    ensures Pids(a + b) == Pids(a) + Pids(b)
  {
    if a == [] {
      assert a + b == b;
    } else {
      assert (a + b)[1..] == a[1..] + b;
      PidsAppend(a[1..], b);
    }
  }

  lemma {:induction false} PidValuesSkip(lines: seq<string>, k: nat)
    requires k <= |lines| && NoPidLine(lines[..k])
    ensures PidValues(lines) == PidValues(lines[k..])
    decreases k
  {
    if k > 0 {
      assert lines[..k][0] == lines[0];
      assert lines[1..][..k - 1] == lines[..k][1..];
      PidValuesSkip(lines[1..], k - 1);
      assert lines[1..][k - 1..] == lines[k..];
    }
  }

  lemma {:induction false} RecordsPids(lines: seq<string>)
    ensures Pids(Records(lines)) == PidValues(lines)
    decreases |lines|
  {
    if lines != [] {
      if !HasTag(lines[0], 'p') {
        RecordsPids(lines[1..]);
      } else {
        var end := NextPidLine(lines, 1);
        var rec := ApplyFields(Fresh(lines[0][1..]), lines[1..end]);
        ApplyFieldsKeepsPid(Fresh(lines[0][1..]), lines[1..end]);
        RecordsPids(lines[end..]);
        PidsAppend(Flush([], rec), Records(lines[end..]));
        assert lines[1..][..end - 1] == lines[1..end];
        PidValuesSkip(lines[1..], end - 1);
        assert lines[1..][end - 1..] == lines[end..];
      }
    }
  }

  /** The PIDs `parseLsofOutput` returns are the non-empty `p` values, in the
      order of their lines: one record per such line, and none for fields that
      precede the first `p` line. */
  lemma ParsePids(output: string)
    ensures Pids(ParseLsofOutput(output)) == PidValues(Split(output, '\n'))
  {
    ParseIsRecords(output);
    RecordsPids(Split(output, '\n'));
  }
}

=== FILE: snapshot.dfy ===
/** The snapshot files `current.dirs`, `current.files`, `previous.dirs` and
    `previous.files`: `saveEntries` writes them and `loadEntries` reads them. */
module Snapshot {
  import opened Wrappers
  import opened Decimal
  import opened Text
  import opened Entries

  /** Why `loadEntries` returns an error: the file could not be opened. */
  datatype LoadError = OpenFailed

  /** One snapshot line without its newline: decimal size, a tab, the path. */
  function FormatLine(e: DiskEntry): (line: string)
    ensures '\t' in line
    ensures line[..IndexOf(line, '\t')] == FormatInt(e.size)
    ensures line[IndexOf(line, '\t') + 1..] == e.path
  {
    var head := FormatInt(e.size);
    assert forall i :: 0 <= i < |head| ==> head[i] != '\t';
    var line := head + "\t" + e.path;
    assert line[|head|] == '\t';
    assert line[..|head|] == head;
    line
  }

  function FormatLines(entries: seq<DiskEntry>): (lines: seq<string>)
    ensures |lines| == |entries|
    ensures forall i :: 0 <= i < |entries| ==> lines[i] == FormatLine(entries[i])
  {
    if entries == [] then [] else [FormatLine(entries[0])] + FormatLines(entries[1..])
  }

  /** The text `saveEntries` writes: each entry as `size TAB path NEWLINE`, in
      the order given. */
  function Save(entries: seq<DiskEntry>): (text: string)
    ensures text == "" <==> entries == []
    ensures text != "" ==> text[|text| - 1] == '\n'
  {
    if entries == [] then "" else FormatLine(entries[0]) + "\n" + Save(entries[1..])
  }

  /** One scanned line as `loadEntries` reads it: the text before the first tab
      must be a decimal `int64`, and everything after that tab, further tabs
      included, is the path. Any other line yields nothing. */
  function ParseLine(line: string): (r: Option<DiskEntry>)
    ensures r.None? <==> '\t' !in line || ParseInt64(line[..IndexOf(line, '\t')]).None?
    ensures r.Some? ==>
      && r.value.path == line[IndexOf(line, '\t') + 1..]
      && ParseInt64(line[..IndexOf(line, '\t')]) == Some(r.value.size)
  {
    var parts := SplitFirst(line, '\t');
    if |parts| != 2 then None
    else
      SplitFirstUnique(line[..IndexOf(line, '\t')], '\t', line[IndexOf(line, '\t') + 1..]);
      match ParseInt64(parts[0])
      case None => None
      case Some(size) => Some(DiskEntry(parts[1], size))
  }

  /** The entries of the well-formed lines, in line order; malformed lines are
      skipped. */
  function ParseLines(lines: seq<string>): (entries: seq<DiskEntry>)
    ensures |entries| <= |lines|
    ensures forall i :: 0 <= i < |entries| ==> InInt64(entries[i].size)
  {
    if lines == [] then [] else LineEntries(lines[0]) + ParseLines(lines[1..])
  }

  /** The entries a single line contributes: its entry, or none. */
  function LineEntries(line: string): (entries: seq<DiskEntry>)
    ensures ParseLine(line).None? ==> entries == []
    ensures ParseLine(line).Some? ==> entries == [ParseLine(line).value]
  {
    match ParseLine(line)
    case None => []
    case Some(e) => [e]
  }

  /** Every parsed entry is the entry of one of the lines. */
  lemma {:induction false} ParseLinesSound(lines: seq<string>)
    ensures forall i :: 0 <= i < |ParseLines(lines)| ==>
      exists j :: 0 <= j < |lines| && ParseLine(lines[j]) == Some(ParseLines(lines)[i])
  {
    if lines != [] {
      ParseLinesSound(lines[1..]);
      var head, rest := LineEntries(lines[0]), ParseLines(lines[1..]);
      assert ParseLines(lines) == head + rest;
      forall i | 0 <= i < |ParseLines(lines)|
        ensures exists j :: 0 <= j < |lines| && ParseLine(lines[j]) == Some(ParseLines(lines)[i])
      {
        if i < |head| {
          assert ParseLine(lines[0]) == Some(ParseLines(lines)[i]);
        } else {
          var j :| 0 <= j < |lines[1..]| && ParseLine(lines[1..][j]) == Some(rest[i - |head|]);
          assert ParseLine(lines[j + 1]) == Some(ParseLines(lines)[i]);
        }
      }
    } else {
      assert ParseLines(lines) == [];
    }
  }

  /** The entries `loadEntries` returns for a file's contents: at most one per
      line, each the entry of one of the lines, so no path holds a newline. */
  function Parse(text: string): (entries: seq<DiskEntry>)
    ensures text == "" ==> entries == []
    ensures |entries| <= |ScanLines(text)|
    ensures forall i :: 0 <= i < |entries| ==>
      exists j :: 0 <= j < |ScanLines(text)| && ParseLine(ScanLines(text)[j]) == Some(entries[i])
    ensures forall i :: 0 <= i < |entries| ==> InInt64(entries[i].size) && '\n' !in entries[i].path
  {
    var lines := ScanLines(text);
    ParseLinesSound(lines);
    ParseLinesNoNewline(lines);
    ParseLines(lines)
  }

  /** Every well-formed scanned line of a file gives a loaded entry, placed
      after the entries of the lines before it. */
  lemma ParseComplete(text: string)
    ensures var lines := ScanLines(text);
      forall j :: 0 <= j < |lines| && ParseLine(lines[j]).Some? ==>
        var at := |ParseLines(lines[..j])|;
        at < |Parse(text)| && Parse(text)[at] == ParseLine(lines[j]).value
  {
    ParseLinesComplete(ScanLines(text));
  }

  /** Every well-formed line's entry is kept, after the entries of the lines
      before it. */
  lemma ParseLinesComplete(lines: seq<string>)
    ensures forall j :: 0 <= j < |lines| && ParseLine(lines[j]).Some? ==>
      var at := |ParseLines(lines[..j])|;
      at < |ParseLines(lines)| && ParseLines(lines)[at] == ParseLine(lines[j]).value
  {
    forall j | 0 <= j < |lines| && ParseLine(lines[j]).Some?
      ensures var at := |ParseLines(lines[..j])|;
        at < |ParseLines(lines)| && ParseLines(lines)[at] == ParseLine(lines[j]).value
    {
      ParseLineAt(lines, j);
    }
  }

  lemma ParseLineAt(lines: seq<string>, j: nat)
    requires j < |lines| && ParseLine(lines[j]).Some?
    ensures var at := |ParseLines(lines[..j])|;
      at < |ParseLines(lines)| && ParseLines(lines)[at] == ParseLine(lines[j]).value
  {
    var before, from := lines[..j], lines[j..];
    assert lines == before + from;
    ParseLinesAppend(before, from);
    assert from[0] == lines[j];
    assert ParseLines(from) == LineEntries(from[0]) + ParseLines(from[1..]);
  }

  /** A path is the tail of its line, so newline-free lines give
      newline-free paths. */
  lemma {:induction false} ParseLinesNoNewline(lines: seq<string>)
    requires forall i :: 0 <= i < |lines| ==> '\n' !in lines[i]
    ensures forall i :: 0 <= i < |ParseLines(lines)| ==> '\n' !in ParseLines(lines)[i].path
  {
    if lines != [] {
      ParseLinesNoNewline(lines[1..]);
      var line := lines[0];
      if ParseLine(line).Some? {
        var k := IndexOf(line, '\t') + 1;
        assert forall m :: 0 <= m < |line[k..]| ==> line[k..][m] == line[k + m];
      }
      assert ParseLines(lines) == LineEntries(line) + ParseLines(lines[1..]);
    } else {
      assert ParseLines(lines) == [];
    }
  }

  /** `loadEntries`: `None` stands for a file that cannot be opened. */
  function Load(file: Option<string>): (r: Result<seq<DiskEntry>, LoadError>)
    ensures r.Failure? <==> file.None?
    ensures r.Success? ==> forall i :: 0 <= i < |r.value| ==> InInt64(r.value[i].size)
  {
    match file
    case None => Failure(OpenFailed)
    case Some(text) => Success(Parse(text))
  }

  /** Parsing is line by line: the entries of two runs of lines are the entries
      of each, one after the other. */
  lemma {:induction false} ParseLinesAppend(a: seq<string>, b: seq<string>)
    ensures ParseLines(a + b) == ParseLines(a) + ParseLines(b)
  {
    if a != [] {
      assert (a + b)[0] == a[0];
      assert (a + b)[1..] == a[1..] + b;
      ParseLinesAppend(a[1..], b);
    } else {
      assert a + b == b;
    }
  }

  /** A single line contributes its entry when it is well formed, and nothing
      otherwise. */
  lemma ParseOneLine(line: string)
    ensures ParseLine(line).None? ==> ParseLines([line]) == []
    ensures ParseLine(line).Some? ==> ParseLines([line]) == [ParseLine(line).value]
  {
  }

  /** An entry `saveEntries` can write and `loadEntries` reads back unchanged:
      an `int64` size and a path with no newline and no trailing carriage return. */
  predicate Saveable(e: DiskEntry) {
    InInt64(e.size) && PlainLine(e.path)
  }

  lemma FormatLineIsPlain(e: DiskEntry)
    requires Saveable(e)
    ensures PlainLine(FormatLine(e))
  {
    var line := FormatLine(e);
    var head := FormatInt(e.size);
    forall i | 0 <= i < |line|
      ensures line[i] != '\n'
    {
      if i > |head| {
        assert line[i] == e.path[i - |head| - 1];
      }
    }
    if e.path == [] {
      assert line[|line| - 1] == '\t';
    } else {
      assert line[|line| - 1] == e.path[|e.path| - 1];
    }
  }

  lemma ParseFormatLine(e: DiskEntry)
    requires InInt64(e.size)
    ensures ParseLine(FormatLine(e)) == Some(e)
  {
    var head := FormatInt(e.size);
    assert forall i :: 0 <= i < |head| ==> head[i] != '\t';
    assert FormatLine(e) == head + ['\t'] + e.path;
    SplitFirstUnique(head, '\t', e.path);
    FormatThenParse(e.size);
  }

  lemma {:induction false} SaveIsTerminated(entries: seq<DiskEntry>)
    ensures Save(entries) == Terminated(FormatLines(entries))
  {
    if entries != [] {
      SaveIsTerminated(entries[1..]);
      assert FormatLines(entries)[1..] == FormatLines(entries[1..]);
    }
  }

  lemma {:induction false} ParseFormatLines(entries: seq<DiskEntry>)
    requires forall i :: 0 <= i < |entries| ==> InInt64(entries[i].size)
    ensures ParseLines(FormatLines(entries)) == entries
  {
    if entries != [] {
      var lines := FormatLines(entries);
      ParseFormatLine(entries[0]);
      assert lines[1..] == FormatLines(entries[1..]);
      ParseFormatLines(entries[1..]);
      assert ParseLines(lines) == LineEntries(lines[0]) + ParseLines(lines[1..]);
    }
  }

  /** Snapshot round trip: loading the text `saveEntries` wrote gives back the
      same entries in the same order. */
  lemma RoundTrip(entries: seq<DiskEntry>)
    requires forall i :: 0 <= i < |entries| ==> Saveable(entries[i])
    ensures Load(Some(Save(entries))) == Success(entries)
  {
    var lines := FormatLines(entries);
    forall i | 0 <= i < |lines|
      ensures PlainLine(lines[i])
    {
      FormatLineIsPlain(entries[i]);
    }
    SaveIsTerminated(entries);
    ScanTerminated(lines);
    ParseFormatLines(entries);
  }
}

=== FILE: text.dfy ===
/** The string splitting Go's standard library does for the snapshot reader and
    the `lsof` parser: `strings.Split`, `strings.SplitN(_, _, 2)` and the line
    tokens of `bufio.Scanner` with `ScanLines`. A `char` stands for one byte of
    a Go string. */
module Text {

  /** Index of the first `c` in `s`. */
  function IndexOf(s: string, c: char): (i: nat)
    requires c in s
    ensures i < |s| && s[i] == c
    ensures c !in s[..i]
  {
    if s[0] == c then 0
    else
      assert s == [s[0]] + s[1..];
      var j := IndexOf(s[1..], c);
      assert s[..j + 1] == [s[0]] + s[1..][..j];
      j + 1
  }

  /** The pieces joined back with `c` between consecutive ones. */
  function JoinWith(parts: seq<string>, c: char): string
    requires |parts| >= 1
  {
    if |parts| == 1 then parts[0] else parts[0] + [c] + JoinWith(parts[1..], c)
  }

  /** `strings.Split(s, string(c))`: the maximal `c`-free pieces between the
      occurrences of `c`, so one more piece than there are separators. */
  function Split(s: string, c: char): (parts: seq<string>)
    ensures |parts| >= 1
    ensures forall i :: 0 <= i < |parts| ==> c !in parts[i]
    ensures JoinWith(parts, c) == s
    decreases |s|
  {
    if c !in s then [s]
    else
      var i := IndexOf(s, c);
      var rest := Split(s[i + 1..], c);
      assert s == s[..i] + [c] + s[i + 1..];
      [s[..i]] + rest
  }

  /** Splitting undoes joining whenever no piece holds the separator. */
  lemma {:induction false} SplitJoin(parts: seq<string>, c: char)
    requires |parts| >= 1
    requires forall i :: 0 <= i < |parts| ==> c !in parts[i]
    ensures Split(JoinWith(parts, c), c) == parts
    decreases |parts|
  {
    var s := JoinWith(parts, c);
    if |parts| == 1 {
    } else {
      var tail := JoinWith(parts[1..], c);
      assert s == parts[0] + [c] + tail;
      assert s[|parts[0]|] == c;
      assert c in s;
      var i := IndexOf(s, c);
      assert s[..|parts[0]|] == parts[0];
      assert s[i + 1..] == tail;
      SplitJoin(parts[1..], c);
    }
  }

  /** `strings.SplitN(s, string(c), 2)`: the whole string when it holds no `c`,
      otherwise the text before the first `c` and everything after it. */
  function SplitFirst(s: string, c: char): (parts: seq<string>)
    ensures c !in s ==> parts == [s]
    ensures c in s ==> |parts| == 2 && c !in parts[0] && parts[0] + [c] + parts[1] == s
  {
    if c in s then
      var i := IndexOf(s, c);
      assert s == s[..i] + [c] + s[i + 1..];
      [s[..i], s[i + 1..]]
    else [s]
  }

  /** The two halves `SplitFirst` returns are the only ones with a `c`-free head. */
  lemma SplitFirstUnique(head: string, c: char, tail: string)
    requires c !in head
    ensures SplitFirst(head + [c] + tail, c) == [head, tail]
  {
    var s := head + [c] + tail;
    assert s[|head|] == c;
    var parts := SplitFirst(s, c);
    assert |parts| == 2;
    assert parts[0] == s[..|head|] == head;
    assert parts[1] == s[|head| + 1..] == tail;
  }

  /** `bufio.ScanLines` strips one carriage return that ends a token. */
  function DropCR(line: string): (r: string)
    ensures |line| > 0 && line[|line| - 1] == '\r' ==> line == r + ['\r']
    ensures !(|line| > 0 && line[|line| - 1] == '\r') ==> r == line
    ensures '\n' !in line ==> '\n' !in r
  {
    if |line| > 0 && line[|line| - 1] == '\r' then line[..|line| - 1] else line
  }

  function DropCRs(lines: seq<string>): (r: seq<string>)
    ensures |r| == |lines|
    ensures forall i :: 0 <= i < |lines| ==> r[i] == DropCR(lines[i])
  {
    if lines == [] then [] else [DropCR(lines[0])] + DropCRs(lines[1..])
  }

  /** The tokens a `bufio.Scanner` with `ScanLines` yields for `text`: the
      raw lines of the text, each with one trailing carriage return removed. */
  function ScanLines(text: string): (lines: seq<string>)
    ensures text == "" ==> lines == []
    ensures forall i :: 0 <= i < |lines| ==> '\n' !in lines[i]
    ensures |lines| <= |Split(text, '\n')|
    ensures exists raw :: RawLines(text, raw) && lines == DropCRs(raw)
  {
    var raw := Pieces(text);
    PiecesAreRawLines(text);
    DropCRs(raw)
  }

  /** `raw` are the lines of `text` before carriage returns are dropped: each
      is newline-free, and `text` is each of them followed by a newline,
      except that a last non-empty line may lack its newline. */
  ghost predicate RawLines(text: string, raw: seq<string>) {
    && (forall i :: 0 <= i < |raw| ==> '\n' !in raw[i])
    && (text == Terminated(raw) || (raw != [] && raw[|raw| - 1] != "" && text + "\n" == Terminated(raw)))
  }

  /** The newline-separated pieces of `text`, without the empty piece after
      a final newline. */
  function Pieces(text: string): (raw: seq<string>)
    ensures text == "" ==> raw == []
    ensures |raw| <= |Split(text, '\n')|
    ensures forall i :: 0 <= i < |raw| ==> '\n' !in raw[i]
  {
    var parts := Split(text, '\n');
    var kept := if parts[|parts| - 1] == "" then parts[..|parts| - 1] else parts;
    assert forall i :: 0 <= i < |kept| ==> kept[i] == parts[i];
    kept
  }

  lemma PiecesAreRawLines(text: string)
    ensures RawLines(text, Pieces(text))
  {
    var parts := Split(text, '\n');
    var raw := Pieces(text);
    if parts[|parts| - 1] == "" {
      assert parts == raw + [""];
      TerminatedIsJoin(raw);
    } else {
      assert raw == parts;
      TerminatedIsJoin(raw);
      JoinSnoc(raw, "", '\n');
    }
  }

  /** Joining one more piece appends the separator and that piece. */
  lemma {:induction false} JoinSnoc(parts: seq<string>, last: string, c: char)
    requires |parts| >= 1
    ensures JoinWith(parts + [last], c) == JoinWith(parts, c) + [c] + last
  {
    if |parts| > 1 {
      assert (parts + [last])[1..] == parts[1..] + [last];
      JoinSnoc(parts[1..], last, c);
    }
  }

  /** A text has only one reading as raw lines, so the scanner's tokens are
      fully determined by it. */
  lemma RawLinesUnique(text: string, a: seq<string>, b: seq<string>)
    requires RawLines(text, a) && RawLines(text, b)
    ensures a == b
  {
    if text == Terminated(a) && text == Terminated(b) {
      SameSplit(a, b, text);
    } else if text == Terminated(a) {
      TerminatedAfterNewline(a, b);
      assert false;
    } else if text == Terminated(b) {
      TerminatedAfterNewline(b, a);
      assert false;
    } else {
      SameSplit(a, b, text + "\n");
    }
  }

  lemma SameSplit(a: seq<string>, b: seq<string>, text: string)
    requires forall i :: 0 <= i < |a| ==> '\n' !in a[i]
    requires forall i :: 0 <= i < |b| ==> '\n' !in b[i]
    requires text == Terminated(a) && text == Terminated(b)
    ensures a == b
  {
    TerminatedSplit(a);
    TerminatedSplit(b);
    assert a + [""] == b + [""];
    assert a == (a + [""])[..|a|];
  }

  /** Splitting newline-terminated raw lines gives them back with an empty
      last piece. */
  lemma TerminatedSplit(raw: seq<string>)
    requires forall i :: 0 <= i < |raw| ==> '\n' !in raw[i]
    ensures Split(Terminated(raw), '\n') == raw + [""]
  {
    TerminatedIsJoin(raw);
    SplitJoin(raw + [""], '\n');
  }

  /** One more newline after terminated lines adds one more empty piece. */
  lemma NewlineAfterTerminated(a: seq<string>)
    requires forall i :: 0 <= i < |a| ==> '\n' !in a[i]
    ensures Split(Terminated(a) + "\n", '\n') == a + ["", ""]
  {
    JoinTwoEmpty(a);
    EmptyPiecesFree(a);
    SplitJoin(a + ["", ""], '\n');
  }

  lemma JoinTwoEmpty(a: seq<string>)
    ensures JoinWith(a + ["", ""], '\n') == Terminated(a) + "\n"
  {
    TerminatedIsJoin(a);
    JoinSnoc(a + [""], "", '\n');
    assert a + [""] + [""] == a + ["", ""];
  }

  lemma EmptyPiecesFree(a: seq<string>)
    requires forall i :: 0 <= i < |a| ==> '\n' !in a[i]
    ensures forall i :: 0 <= i < |a + ["", ""]| ==> '\n' !in (a + ["", ""])[i]
  {
    var longer := a + ["", ""];
    forall i | 0 <= i < |longer|
      ensures '\n' !in longer[i]
    {
      if i < |a| {
        assert longer[i] == a[i];
      }
    }
  }

  /** Lines whose terminated text is another terminated text plus a newline
      end with an empty line. */
  lemma TerminatedAfterNewline(a: seq<string>, b: seq<string>)
    requires forall i :: 0 <= i < |a| ==> '\n' !in a[i]
    requires forall i :: 0 <= i < |b| ==> '\n' !in b[i]
    requires Terminated(a) + "\n" == Terminated(b)
    ensures b != [] && b[|b| - 1] == ""
  {
    NewlineAfterTerminated(a);
    TerminatedSplit(b);
    var longer := a + ["", ""];
    assert b + [""] == longer;
    assert |b| == |a| + 1;
    assert b[|b| - 1] == longer[|b| - 1];
  }

  /** The text of `lines`, each followed by a newline, as `Fprintf("...\n")` writes it. */
  function Terminated(lines: seq<string>): string
  {
    if lines == [] then "" else lines[0] + "\n" + Terminated(lines[1..])
  }

  /** A line the scanner gives back unchanged: no newline inside and no
      carriage return at its end. */
  predicate PlainLine(line: string) {
    '\n' !in line && !(|line| > 0 && line[|line| - 1] == '\r')
  }

  /** Writing newline-terminated plain lines and scanning the text gives the
      lines back, in order. */
  lemma {:induction false} ScanTerminated(lines: seq<string>)
    requires forall i :: 0 <= i < |lines| ==> PlainLine(lines[i])
    ensures ScanLines(Terminated(lines)) == lines
  {
    var parts := lines + [""];
    forall i | 0 <= i < |parts|
      ensures '\n' !in parts[i]
    {
      if i < |lines| {
        assert PlainLine(lines[i]);
      }
    }
    TerminatedIsJoin(lines);
    SplitJoin(parts, '\n');
    assert parts[..|parts| - 1] == lines;
    forall i | 0 <= i < |lines|
      ensures DropCR(lines[i]) == lines[i]
    {
      assert PlainLine(lines[i]);
    }
  }

  lemma {:induction false} TerminatedIsJoin(lines: seq<string>)
    ensures Terminated(lines) == JoinWith(lines + [""], '\n')
  {
    if lines != [] {
      TerminatedIsJoin(lines[1..]);
      assert (lines + [""])[1..] == lines[1..] + [""];
    }
  }
}

=== FILE: top_n.dfy ===
/** The "sort by size, largest first, then keep the first `maxItems`" step that
    `findLargestDirectories`, `findLargestFiles` and `analyzeGrowth` share.

    Go's `sort.Slice` is not stable, so the order of equal sizes is not fixed.
    `Sort` below is one admissible outcome; `SelectTop`'s contract states only
    what every outcome has in common, and `AnySortSameSizes` shows that every
    non-increasing rearrangement yields the same sequence of sizes. */
module TopN {
  import opened Entries

  /** Non-increasing by size: the order `less(i, j) = size[i] > size[j]` asks for. */
  predicate SortedDesc(s: seq<DiskEntry>) {
    forall i, j :: 0 <= i < j < |s| ==> s[i].size >= s[j].size
  }

  predicate NonIncreasing(s: seq<int>) {
    forall i, j :: 0 <= i < j < |s| ==> s[i] >= s[j]
  }

  function Insert(e: DiskEntry, s: seq<DiskEntry>): (r: seq<DiskEntry>)
    requires SortedDesc(s)
    ensures SortedDesc(r)
    ensures multiset(r) == multiset(s) + multiset{e}
    ensures |r| == |s| + 1
    ensures r[0] == e || (s != [] && r[0] == s[0])
  {
    if s == [] then [e]
    else if e.size >= s[0].size then
      ConsSorted(e, s);
      [e] + s
    else
      TailSorted(s);
      var rest := Insert(e, s[1..]);
      ConsSorted(s[0], rest);
      ConsMultiset(s, rest, e);
      [s[0]] + rest
  }

  lemma TailSorted(s: seq<DiskEntry>)
    requires s != [] && SortedDesc(s)
    ensures SortedDesc(s[1..])
  {
    assert forall i :: 0 <= i < |s| - 1 ==> s[1..][i] == s[i + 1];
  }

  /** Putting an entry at least as large as the head in front keeps the order. */
  lemma ConsSorted(x: DiskEntry, s: seq<DiskEntry>)
    requires SortedDesc(s) && (s == [] || x.size >= s[0].size)
    ensures SortedDesc([x] + s)
  {
    var r := [x] + s;
    forall i, j | 0 <= i < j < |r|
      ensures r[i].size >= r[j].size
    {
      assert r[j] == s[j - 1];
      if i > 0 {
        assert r[i] == s[i - 1];
      }
    }
  }

  lemma ConsMultiset(s: seq<DiskEntry>, rest: seq<DiskEntry>, e: DiskEntry)
    requires s != [] && multiset(rest) == multiset(s[1..]) + multiset{e}
    ensures multiset([s[0]] + rest) == multiset(s) + multiset{e}
  {
    assert s == [s[0]] + s[1..];
  }

  /** A non-increasing rearrangement of `s`. */
  function Sort(s: seq<DiskEntry>): (r: seq<DiskEntry>)
    ensures SortedDesc(r)
    ensures multiset(r) == multiset(s)
    ensures |r| == |s|
  {
    if s == [] then []
    else
      assert s == [s[0]] + s[1..];
      Insert(s[0], Sort(s[1..]))
  }

  /** `if len(s) > maxItems { return s[:maxItems] }; return s`. A negative
      `maxItems` makes Go's slice expression panic, so it is a `nat` here. */
  function Truncate(s: seq<DiskEntry>, maxItems: nat): (r: seq<DiskEntry>)
    ensures |r| == if |s| > maxItems then maxItems else |s|
    ensures r == s[..|r|]
  {
    if |s| > maxItems then s[..maxItems] else s
  }

  /** The `maxItems` largest entries, largest first. */
  function SelectTop(entries: seq<DiskEntry>, maxItems: nat): (top: seq<DiskEntry>)
    ensures |top| == if |entries| > maxItems then maxItems else |entries|
    ensures SortedDesc(top)
    ensures multiset(top) <= multiset(entries)
    ensures forall e, j :: e in multiset(entries) - multiset(top) && 0 <= j < |top| ==>
      e.size <= top[j].size
  {
    var sorted := Sort(entries);
    var top := Truncate(sorted, maxItems);
    DroppedAreSmaller(sorted, |top|);
    top
  }

  /** An entry the selection leaves out is no larger than any it keeps, and
      it is left out only when the selection is full. */
  lemma KeptOrOutranked(entries: seq<DiskEntry>, maxItems: nat, g: DiskEntry)
    requires g in entries
    ensures var top := SelectTop(entries, maxItems);
      g in top || (|top| == maxItems && forall k :: 0 <= k < |top| ==> g.size <= top[k].size)
  {
    var top := SelectTop(entries, maxItems);
    if g !in top {
      assert g in multiset(entries) - multiset(top);
    }
  }

  /** Cutting a sorted sequence drops only entries no larger than any kept one. */
  lemma DroppedAreSmaller(sorted: seq<DiskEntry>, k: nat)
    requires SortedDesc(sorted) && k <= |sorted|
    ensures multiset(sorted[..k]) <= multiset(sorted)
    ensures forall e, j :: e in multiset(sorted) - multiset(sorted[..k]) && 0 <= j < k ==>
      e.size <= sorted[j].size
  {
    assert sorted == sorted[..k] + sorted[k..];
    assert multiset(sorted) == multiset(sorted[..k]) + multiset(sorted[k..]);
    forall e, j | e in multiset(sorted) - multiset(sorted[..k]) && 0 <= j < k
      ensures e.size <= sorted[j].size
    {
      assert e in multiset(sorted[k..]);
      var m :| 0 <= m < |sorted[k..]| && sorted[k..][m] == e;
      assert sorted[k + m] == e;
    }
  }

  lemma {:induction false} SizesAppend(a: seq<DiskEntry>, b: seq<DiskEntry>)
    ensures Sizes(a + b) == Sizes(a) + Sizes(b)
  {
    if a == [] {
      assert a + b == b;
    } else {
      assert (a + b)[1..] == a[1..] + b;
      SizesAppend(a[1..], b);
    }
  }

  lemma MultisetTail<T>(x: seq<T>)
    requires |x| > 0
    ensures multiset(x[1..]) == multiset(x) - multiset{x[0]}
  {
    assert x == [x[0]] + x[1..];
  }

  /** Taking out the entry at `i`. */
  lemma RemoveAt(b: seq<DiskEntry>, i: nat)
    requires i < |b|
    ensures multiset(b[..i] + b[i + 1..]) == multiset(b) - multiset{b[i]}
    ensures multiset(Sizes(b)) == multiset(Sizes(b[..i] + b[i + 1..])) + multiset{b[i].size}
  {
    var front, back := b[..i], b[i + 1..];
    Around(b, i);
    RemoveMiddle(front, b[i], back);
    SizesAround(front, b[i], back);
  }

  lemma Around(b: seq<DiskEntry>, i: nat)
    requires i < |b|
    ensures b == b[..i] + ([b[i]] + b[i + 1..])
  {
  }

  lemma RemoveMiddle(front: seq<DiskEntry>, x: DiskEntry, back: seq<DiskEntry>)
    ensures multiset(front + back) == multiset(front + ([x] + back)) - multiset{x}
  {
    calc {
      multiset(front + ([x] + back));
      multiset(front) + multiset([x] + back);
      multiset(front) + multiset{x} + multiset(back);
      multiset(front + back) + multiset{x};
    }
  }

  lemma SizesAround(front: seq<DiskEntry>, x: DiskEntry, back: seq<DiskEntry>)
    ensures multiset(Sizes(front + ([x] + back))) ==
      multiset(Sizes(front + back)) + multiset{x.size}
  {
    SizesAppend(front, [x] + back);
    SizesAppend([x], back);
    SizesAppend(front, back);
    assert Sizes([x]) == [x.size];
    assert multiset(Sizes(front + ([x] + back))) ==
      multiset(Sizes(front)) + multiset{x.size} + multiset(Sizes(back));
  }

  /** Rearranging entries rearranges their sizes. */
  lemma {:induction false} SizesOfPermutation(a: seq<DiskEntry>, b: seq<DiskEntry>)
    requires multiset(a) == multiset(b)
    ensures multiset(Sizes(a)) == multiset(Sizes(b))
    decreases |a|
  {
    if a == [] {
      assert |b| == |multiset(b)| == 0;
    } else {
      var x := a[0];
      MultisetTail(a);
      assert x in multiset(b);
      var i :| 0 <= i < |b| && b[i] == x;
      RemoveAt(b, i);
      SizesOfPermutation(a[1..], b[..i] + b[i + 1..]);
      assert Sizes(a) == [x.size] + Sizes(a[1..]);
    }
  }

  lemma HeadIsMax(x: seq<int>, v: int)
    requires NonIncreasing(x) && v in multiset(x)
    ensures |x| > 0 && v <= x[0]
  {
    assert v in x;
    var i :| 0 <= i < |x| && x[i] == v;
    assert i == 0 || x[0] >= x[i];
  }

  /** Two non-increasing integer sequences holding the same values are equal. */
  lemma {:induction false} NonIncreasingUnique(x: seq<int>, y: seq<int>)
    requires NonIncreasing(x) && NonIncreasing(y)
    requires multiset(x) == multiset(y)
    ensures x == y
    decreases |x|
  {
    if x == [] {
      assert |y| == |multiset(y)| == 0;
    } else {
      assert x[0] in multiset(x);
      HeadIsMax(y, x[0]);
      assert y[0] in multiset(y);
      HeadIsMax(x, y[0]);
      assert x[0] == y[0];
      MultisetTail(x);
      MultisetTail(y);
      assert multiset(x[1..]) == multiset(y[1..]);
      assert NonIncreasing(x[1..]) && NonIncreasing(y[1..]);
      NonIncreasingUnique(x[1..], y[1..]);
      calc {
        x;
        [x[0]] + x[1..];
        [y[0]] + y[1..];
        y;
      }
    }
  }

  lemma SortedSizes(s: seq<DiskEntry>)
    requires SortedDesc(s)
    ensures NonIncreasing(Sizes(s))
  {
    SizesIndex(s);
  }

  lemma SizesPrefix(s: seq<DiskEntry>, k: nat)
    requires k <= |s|
    ensures Sizes(s[..k]) == Sizes(s)[..k]
  {
    assert s == s[..k] + s[k..];
    SizesAppend(s[..k], s[k..]);
  }

  /** Whatever order `sort.Slice` leaves equal sizes in, the sizes that the top
      `maxItems` carry are the same: `SelectTop` stands for every outcome. */
  lemma AnySortSameSizes(entries: seq<DiskEntry>, sorted: seq<DiskEntry>, maxItems: nat)
    requires SortedDesc(sorted) && multiset(sorted) == multiset(entries)
    ensures Sizes(Truncate(sorted, maxItems)) == Sizes(SelectTop(entries, maxItems))
  {
    var mine := Sort(entries);
    SortedSizes(sorted);
    SortedSizes(mine);
    SizesOfPermutation(sorted, mine);
    NonIncreasingUnique(Sizes(sorted), Sizes(mine));
    assert |sorted| == |multiset(sorted)| == |multiset(mine)| == |mine|;
    var k := |Truncate(sorted, maxItems)|;
    SizesPrefix(sorted, k);
    SizesPrefix(mine, k);
  }
}

=== FILE: wrappers.dfy ===
/** Failure-compatible wrappers used across the model: an optional value and a
    success-or-error result. */
module Wrappers {

  /** A value that may be absent. */
  datatype Option<+T> = None | Some(value: T) {

    /** The value held, or `default` when there is none. */
    function GetOr(default: T): T {
      match this
      case Some(v) => v
      case None => default
    }
  }

  /** The outcome of an operation that can fail with an error of type `E`. */
  datatype Result<+R, +E> = Success(value: R) | Failure(error: E)
}
